=== FILE: README.md ===
# findfiles: a Dafny model of the search pipeline

findfiles.py counts, for every directory under a root, how many files in
it contain a line matching a regular expression. It has four parts:

- a walker (`find_files`) puts every file path below the root on a task queue;
- a pool of `cpu_count` worker processes (`worker`) takes paths off that queue;
- each worker scans its file with the per-file matcher (`is_file_match`) and
  reports the file's directory on a match, or "---no match---" otherwise;
- a single aggregator (`gather_results`) reads the result queue and counts
  each reported directory.

The aggregator stops once it has seen one "---stopped---" per worker, or when
the queue stays silent for 60 seconds. Each worker sends a keep-alive every
100000 lines of a long scan so that the aggregator does not time out.

This project models each part as pure functions over finite data and proves
how the parts fit together:

| module | file | models |
|---|---|---|
| `Seqs` | seqs.dfy | generic sequence helpers: `Repeat`, `Flatten`, `FilterMap`, `Distinct` |
| `Messages` | messages.dfy | the three queue strings and the typed `Message` the model works with |
| `Paths` | paths.dfy | `os.path.join` and `os.path.dirname` on POSIX paths |
| `Matcher` | matcher.dfy | `is_file_match` with its 100000-line keep-alive counter |
| `Walker` | walker.dfy | `find_files` over a finite directory `Tree` |
| `WorkerLoop` | worker.dfy | `worker`: tasks up to the sentinel, to result messages |
| `Aggregator` | aggregator.dfy | `gather_results`, over typed messages and over the raw strings |
| `Pool` | pool.dfy | `terminate_pool`, how the task queue is shared out, and how the workers' results interleave |
| `Pipeline` | pipeline.dfy | `main`: walk, scan, stop, gather |

Abstractions:

- **Regular expression.** It becomes a predicate `pattern: string -> bool` on lines.
- **File contents.** They become `fs: string -> FileContent`. A file is the lines that
  successive `readline` calls return, followed by the end of the file or a read error.
  A file that cannot be opened is `Unopenable`, which has no lines and ends in a read error.
- **Directory tree.** It becomes a `Tree`:
  - `File` is anything `isdir` rejects;
  - `Dir` holds entries in listing order;
  - `UnlistableDir` is a directory whose listing fails.
- **Concurrency.** It becomes a schedule and an interleaving:
  - `takers[k]` is the worker that takes queue item k;
  - `LegalSchedule` says that no worker takes anything after its sentinel;
  - `Interleaving` is any merge of the workers' output streams that keeps each stream's own order.
- **Receive timeout.** It becomes the message stream running out.

The main results:

- `Pool.PoolCountsEveryMatch` and `Pipeline.PoolRun`: for any number of workers, any legal
  schedule and any arrival order, the final map counts each directory once per matching
  file in it. This is the same map a single worker produces.
- `Pipeline.SingleWorkerRun` is the single-worker version of that result.
- `Pipeline.PoolRunAsWritten`: the results above are stated over the typed messages. The
  program compares raw strings, and it reaches the same map whenever the root, less its
  trailing separators, is not one of the two control strings.

## Model

| member | source | states |
|---|---|---|
| Matcher.IsFileMatch | findfiles.py:31-56 | The file matches exactly when some line read satisfies the pattern. A file that cannot be opened gives no match and no keep-alives. There is one keep-alive per 100000 ticks: ticks are counted up to the first match, or over every line when nothing matches, less one line when a read error ends the file. |
| Matcher.ScanFrom | findfiles.py:37-52 | Each step of the read loop keeps the counter below 100000 and resets it when it sends a keep-alive. The number of keep-alives is (starting counter + remaining ticks) / 100000. The loop finds a match exactly when a later line matches. |
| Matcher.ShortCircuit | findfiles.py:37-42 | Once line j matches, the outcome is (true, j / 100000) however the file continues after line j and however it ends. |
| Messages.Encode | findfiles.py:113-127 | The strings a worker puts on the result queue: the directory on a match (line 116), "---no match---" after a failed match (line 125) and as the keep-alive of line 51, and "---stopped---" at the sentinel (line 127). Messages.Decode and Messages.DecodeEncode carry its contract. |
| Messages.Decode | findfiles.py:91-101 | Classifying a result string gives back a message that encodes to that same string. It is a directory match exactly when the string is neither control string. |
| Messages.DecodeEncode | findfiles.py:91-101 | Every message a worker sends is read back unchanged, except a match whose directory is named like a control string. |
| Messages.ControlDirectoryCollides | findfiles.py:91-96 | A match in a directory named "---no match---" is read as a no-match. A match in a directory named "---stopped---" is read as a worker stopping. |
| Paths.Join | findfiles.py:65 | `os.path.join` with two arguments. Paths.JoinKeepsParts, Paths.JoinLastComponent and Paths.DirnameOfJoin carry its contract. |
| Paths.JoinKeepsParts | findfiles.py:65 | The joined path ends with the entry name, and begins with the parent unless the name is absolute. |
| Paths.JoinLastComponent | findfiles.py:65 | Everything after the last separator of a joined entry name is that name. |
| Paths.Dirname | findfiles.py:115 | `os.path.dirname`: the result is a prefix of the path, and it is empty when the path holds no separator. Paths.DirnameOfJoin relates it to Paths.Join. |
| Paths.DirnameOfJoin | findfiles.py:115 | The directory of `join(parent, name)` is the parent with trailing separators removed. It is the parent itself when the parent is non-empty and does not end in a separator. |
| Walker.FindFiles | findfiles.py:61-73 | The walk itself. Walker.WalkEnqueuesReachableFiles, Walker.DepthFirstOrder, Walker.UnlistableSkipped and Walker.WalkEnqueuesEachFileOnce carry its contract. |
| Walker.DepthFirstOrder | findfiles.py:61-73 | A directory's tasks are those of the entries before entry i, then entry i's joined path (a file) or its whole subtree (a directory), then those of the entries after it. |
| Walker.UnlistableSkipped | findfiles.py:63-73 | A directory whose listing fails adds no tasks and does not stop the walk of its siblings. |
| Walker.WalkEnqueuesReachableFiles | findfiles.py:64-71 | Every task is the joined path of a file reachable through listable directories, and every such file is enqueued. |
| Walker.WalkEnqueuesEachFileOnce | findfiles.py:64-71 | In a well-formed tree, no path is enqueued twice. |
| Walker.NoTaskIsSentinel | findfiles.py:64-71 | Below a non-empty root every task contains a separator, so no task equals "---STOP---". |
| Walker.ReportedDirectoryIsParent | findfiles.py:115 | When the root is non-empty and has no trailing separator or is made only of separators (such as "/"), the directory a worker reports for a walked file is the path the walk gave to that file's directory. |
| Walker.WalkedDirectoryNotControl | findfiles.py:64-68 | Below a root that is not a control string, every directory path the walk builds holds a separator or is the root, so it is not a control string either. |
| Walker.JoinedParentNotControl | findfiles.py:64-68 | Below a non-empty root, the `dirname` of a joined path is not a control string unless the root, less its trailing separators, is one. |
| Walker.TaskParentNotControl | findfiles.py:115 | For any non-empty root that, less its trailing separators, is not a control string (so "src/" and "/" are included), the directory reported for a walked file is not a control string. |
| WorkerLoop.TaskMessages | findfiles.py:113-125 | What one task puts on the result queue. WorkerLoop.TaskResult carries its contract. |
| WorkerLoop.Worker | findfiles.py:109-127 | The worker loop. WorkerLoop.WorkerBeforeSentinel, WorkerLoop.WorkerStopsAtSentinel, WorkerLoop.WorkerStopsOnce and WorkerLoop.WorkerEndsAtSentinel carry its contract. |
| WorkerLoop.TaskResult | findfiles.py:114-125 | One task sends its keep-alives and then exactly one result. Its only directory report is its own directory, and only on a match. |
| WorkerLoop.KeepAlivesReportNothing | findfiles.py:51 | Keep-alives report no directory and no stop. |
| WorkerLoop.WorkerBeforeSentinel | findfiles.py:113-125 | Before the sentinel, the worker sends one result per task plus the keep-alives. The directories it reports are those of the matching tasks, in task order. It never reports stopping. |
| WorkerLoop.WorkerStopsAtSentinel | findfiles.py:113-127 | The worker reads tasks up to the first sentinel, ignores everything after it, and then sends "stopped". |
| WorkerLoop.WorkerEndsAtSentinel | findfiles.py:113-127 | A worker whose last task is its sentinel sends the results of the tasks before it, then "stopped" exactly once. |
| WorkerLoop.WorkerStopsOnce | findfiles.py:127 | A worker that takes a sentinel reports stopping exactly once, and that is its last message. |
| WorkerLoop.MatchingFileDirsCount | findfiles.py:114-116 | A directory occurs among a worker's reports once per matching file directly inside it. |
| WorkerLoop.CountedFileWitness | findfiles.py:114-116 | A directory that is reported at least once has a matching task directly inside it. |
| Aggregator.Increment | findfiles.py:98-101 | A reported directory's count goes up by one, or starts at one. No other count changes. |
| Aggregator.Tally | findfiles.py:96-101 | The reference count: it holds exactly the reported directories, each with its number of reports, and each count is at least one. |
| Aggregator.GatherFrom | findfiles.py:83-101 | The aggregation loop from a given state. Aggregator.GatherFromTimesOut, Aggregator.GatherFromStops and Aggregator.GatherFromGrows carry its contract. |
| Aggregator.Gather | findfiles.py:78-103 | The aggregator over typed messages. Aggregator.GatherTimesOut, Aggregator.GatherEndsAtLastStop, Aggregator.AliveChangesNothing, Aggregator.GatherIgnoresOrder and Aggregator.PartialResultsNeverOvercount carry its contract. |
| Aggregator.GatherTimesOut | findfiles.py:84-89 | If the stream ends before `cpu` stops have arrived, the partial map counts every directory reported so far. |
| Aggregator.GatherEndsAtLastStop | findfiles.py:91-95 | The aggregator stops right after the `cpu`-th stop. The map counts the reports before that stop and nothing after it. |
| Aggregator.GatherEndsWithLastStop | findfiles.py:91-95 | A stream that ends with the `cpu`-th stop is counted in full up to that stop. |
| Aggregator.AliveChangesNothing | findfiles.py:96 | A no-match or keep-alive message never changes the result, wherever it arrives. |
| Aggregator.GatherIgnoresOrder | findfiles.py:83-103 | Reordering the messages before the final stop, or before the end of the stream, gives the same map. |
| Aggregator.PartialResultsNeverOvercount | findfiles.py:84-89 | After a timeout, no count exceeds the count the aggregator would have reached had the stream continued. |
| Aggregator.GatherWireFrom | findfiles.py:83-101 | The aggregation loop as written, comparing raw strings. Aggregator.GatherWireFromDecodes carries its contract. |
| Aggregator.GatherWire | findfiles.py:78-103 | The aggregator as written. Aggregator.GatherWireDecodes, Aggregator.GatherWireFaithful and Aggregator.ControlNamedDirectoryMiscounted carry its contract. |
| Aggregator.GatherWireDecodes | findfiles.py:91-101 | The string-comparing aggregator is the typed aggregator applied to each classified string. |
| Aggregator.GatherWireFaithful | findfiles.py:91-101 | If no matching directory is named like a control string, aggregating the raw strings gives the typed result. |
| Aggregator.ControlNamedDirectoryMiscounted | findfiles.py:91-101 | With one worker, a match in "---stopped---" ends aggregation early and loses later results. A match in "---no match---" is never counted. |
| Pool.TerminatePool | findfiles.py:140-144 | After the queued tasks come exactly `cpu` sentinels and nothing else, so the queue holds `cpu` more sentinels than before. |
| Pool.Shares | findfiles.py:109-113 | Which items of the task queue each worker's `get` returns: one share per worker. Pool.SharesPartition, Pool.WorkerShare and Pool.SentinelPerWorker carry its contract. |
| Pool.SharesPartition | findfiles.py:131-136 | Sharing the task queue among the workers loses no task and duplicates none. |
| Pool.EachWorkerOnce | findfiles.py:140-144 | Pigeonhole: `cpu` distinct worker numbers below `cpu` name each worker exactly once. |
| Pool.SentinelTakersDistinct | findfiles.py:113 | Under a legal schedule no worker takes two sentinels, because a worker stops taking tasks at its first one. |
| Pool.SentinelPerWorker | findfiles.py:140-144 | Under a legal schedule each of the `cpu` workers takes exactly one of the `cpu` sentinels. |
| Pool.WorkerShare | findfiles.py:113-144 | Under a legal schedule, each worker takes its share of the walked paths, in queue order, and then exactly one sentinel. |
| Pool.GatherInterleaved | findfiles.py:83-95 | Whatever the arrival order of streams that each end in their single stop, the aggregator reads all of them and counts every reported directory. |
| Pool.SingleWorkerCounts | findfiles.py:262-269 | With one worker, the map counts the directories of exactly the matching tasks. |
| Pool.PoolCountsEveryMatch | findfiles.py:262-269 | With n workers, under any legal schedule and any arrival order, the map counts the directories of exactly the matching tasks. |
| Pool.PoolReportsMatchingFileDirs | findfiles.py:109-144 | Under any legal schedule and any arrival order, the directories reaching the aggregator are, as a multiset, those of the matching tasks. |
| Pool.PoolSizeIrrelevant | findfiles.py:131-144 | The final map does not depend on the number of workers, the schedule or the arrival order. |
| Pipeline.RunSingle | findfiles.py:266-269 | `main` with one worker: walk, add the sentinel, scan, gather. Pipeline.SingleWorkerRun and Pipeline.PoolRun carry its contract. |
| Pipeline.SingleWorkerRun | findfiles.py:262-269 | For a walked tree with one worker, each directory's count is the number of matching walked files directly inside it, and every stored count is at least one. |
| Pipeline.PoolRun | findfiles.py:262-269 | For a walked tree, the pool's map equals the single worker's map. |
| Pipeline.ReportedDirectoryNotControl | findfiles.py:109-144 | When the root, less its trailing separators, is not a control string, no directory any worker reports is a control string. |
| Pipeline.PoolRunAsWritten | findfiles.py:262-269 | The program as written: the string-comparing aggregator, reading the pool's results in any arrival order under any legal schedule, produces the single worker's map whenever the root, less its trailing separators, is not a control string. |
| Pipeline.ReportedUnderWalkedParent | findfiles.py:262-269 | Every matching reachable file puts its walked parent directory among the keys of the final map, whenever `dirname` keeps the root as written. |

## Left out

- Process creation (`initialize_pool`, findfiles.py:131-136) and the real queues. Workers are pure functions, and parallel execution becomes a schedule plus an interleaving. Backpressure and blocking are not modelled.
- The walk running at the same time as the workers (`main` starts the pool first). The task queue is first in, first out, so the model uses the queue's final contents in order.
- A worker blocked in `get` on an empty queue. The model returns what that worker has sent so far.
- The 60-second receive timeout. It is modelled as the message stream ending, and no clock is modelled.
- Pool.PoolCountsEveryMatch: takes as given that every worker's output reaches the aggregator (a run without a timeout). Runs that time out are covered by Aggregator.GatherTimesOut and Aggregator.PartialResultsNeverOvercount.
- Pool.PoolCountsEveryMatch: requires at least one worker, because `cpu_count` is never zero. The aggregator itself is modelled for `cpu = 0` too, where it reads the whole stream.
- Pool.PoolCountsEveryMatch: is stated over the typed messages. The program as written compares strings, and gives the same map only when no reported directory is a control string. Pipeline.PoolRunAsWritten proves this for every non-empty root that, less its trailing separators, is neither "---no match---" nor "---stopped---". Only a root that is a control string, with or without trailing separators, can collide, because every deeper directory holds a separator.
- Pipeline.PoolRun: is stated over the typed messages. Pipeline.PoolRunAsWritten gives the same map for the string-comparing aggregator whenever the root, less its trailing separators, is not a control string. Otherwise only matching files directly in the root collide: in the root "---stopped---" such a file is read as a worker stopping, so the aggregator may stop early and lose later results (see "## Findings").
- Pipeline.SingleWorkerRun: requires a non-empty root and a well-formed tree (valid, distinct entry names). `validate_arguments` rejects an empty root, and a real directory listing returns names of that kind.
- Pipeline.ReportedUnderWalkedParent: also requires a root that is made only of separators (such as "/") or has no trailing separator. For a root such as `top/`, `dirname` strips the separator and the key is `top`, not the root as written (Paths.DirnameOfJoin states that case).
- Walker.FindFiles: the walk terminates on every finite tree. `find_files` recurses once per directory level (findfiles.py:68), so a tree nested deeper than the interpreter's recursion limit (about 1000 levels by default) raises RuntimeError. The `except OSError` at findfiles.py:72 does not catch it, so `main` raises before `terminate_pool` (findfiles.py:140-144) is reached. The workers started at findfiles.py:136 are not daemons, so at exit the process joins them, and they wait forever in `get` (findfiles.py:113) for a sentinel that never comes. Trees are taken to be shallower than that limit.
- The regular expression engine is replaced by the abstract `pattern`.
- `os.listdir`, `os.path.isdir`, `open` and `readline` are replaced by `Tree` and `fs`. Symbolic links, permissions and the real listing order are not modelled.
- `os.path.join` and `os.path.dirname` (the standard library's posixpath) are not part of this model's sources. `Paths.Join` and `Paths.Dirname` follow their documented POSIX behaviour.
- Verbose and error printing (findfiles.py:39, 54, 62, 73, 87-88) is console output only.
- `parse_arguments` and `validate_arguments` (findfiles.py:148-186) are argument and OS checks. Their `exists` check at line 159 cannot be reached once `isdir` has passed.
- `graph_data` (matplotlib and floating point) and `print_result` (console output) are not modelled.
- Matcher.IsFileMatch: the comment at findfiles.py:47-50 speaks of sending a signal every certain number of lines. The code counts a tick only after the next `readline` succeeds, so when a read error follows the last non-matching line, that line gets no tick. The model follows the code.

## Findings

| source | as written | input that shows it | evidently intended | confidence | as-written member | corrected member |
|---|---|---|---|---|---|---|
| findfiles.py:91-101 | Results travel as plain strings, and the aggregator checks for "---stopped---" and "---no match---" before treating a string as a directory. | Root `---stopped---` (given after `--`) holding a matching file `f` and one worker. The worker sends "---stopped---" for `f`, and the aggregator stops before counting it or anything later. With root `---no match---`, the match is dropped. | Every matching file is counted under its directory, whatever that directory is called. | low; not executed | Aggregator.ControlNamedDirectoryMiscounted | Aggregator.GatherEndsAtLastStop |

=== FILE: aggregator.dfy ===
/**
 The result aggregator `gather_results` of findfiles.py.

 The aggregator takes messages off the result queue one at a time. A
 "stopped" message counts one more finished worker and ends the loop once
 `cpu` workers have finished; a no-match or keep-alive signal changes
 nothing; anything else is a matching directory, whose count goes up by
 one (starting at one when the directory is new). If no message arrives
 for 60 seconds the aggregator warns and returns what it has: in the model
 the message stream simply ends.

 `Gather` reads typed messages; `GatherWire` reads the strings actually on
 the queue, exactly as the source compares them. The two agree except for
 a matching directory whose path is itself a control string.
 */
module Aggregator {
  import opened Seqs
  import opened Messages

  /** The count stored for `d`, zero when `d` is absent. */
  function Count(results: map<string, nat>, d: string): nat
  {
    if d in results then results[d] else 0
  }

  /** One matching directory recorded: its count goes up by one, or starts at one. */
  function Increment(results: map<string, nat>, d: string): (r: map<string, nat>)
    ensures r.Keys == results.Keys + {d}
    ensures r[d] == Count(results, d) + 1
    ensures forall e :: e in results && e != d ==> r[e] == results[e]
  {
    if d in results then results[d := results[d] + 1] else results[d := 1]
  }

  /** Reference count: each directory of `ds` mapped to how often it occurs there. */
  function Tally(ds: seq<string>): (r: map<string, nat>)
    ensures forall d :: d in r <==> d in ds
    ensures forall d :: d in r ==> r[d] == multiset(ds)[d] && r[d] >= 1
  {
    map d | d in ds :: multiset(ds)[d]
  }

  /** The counts of `results` with the occurrences in `ds` added. */
  function AddTally(results: map<string, nat>, ds: seq<string>): map<string, nat>
  {
    var keys := results.Keys + (set e | e in ds);
    map d | d in keys :: Count(results, d) + multiset(ds)[d]
  }

  /** The aggregation loop after `done` workers have stopped, with `results` counted so far. */
  function GatherFrom(ms: seq<Message>, cpu: nat, done: nat, results: map<string, nat>): map<string, nat>
    decreases |ms|
  {
    if ms == [] then results   // the receive timed out: partial results
    else match ms[0]
      case Stopped => if done + 1 == cpu then results else GatherFrom(ms[1..], cpu, done + 1, results)
      case Alive => GatherFrom(ms[1..], cpu, done, results)
      case Match(d) => GatherFrom(ms[1..], cpu, done, Increment(results, d))
  }

  /** gather_results over typed messages, with `cpu` workers in the pool. */
  function Gather(ms: seq<Message>, cpu: nat): map<string, nat>
  {
    GatherFrom(ms, cpu, 0, map[])
  }

  /** The aggregation loop as written, over the strings on the result queue. */
  function GatherWireFrom(rs: seq<string>, cpu: nat, done: nat, results: map<string, nat>): map<string, nat>
    decreases |rs|
  {
    if rs == [] then results
    else if rs[0] == STOPPED then
      if done + 1 == cpu then results else GatherWireFrom(rs[1..], cpu, done + 1, results)
    else if rs[0] != NO_MATCH then GatherWireFrom(rs[1..], cpu, done, Increment(results, rs[0]))
    else GatherWireFrom(rs[1..], cpu, done, results)
  }

  /** gather_results as written, with `cpu` workers in the pool. */
  function GatherWire(rs: seq<string>, cpu: nat): map<string, nat>
  {
    GatherWireFrom(rs, cpu, 0, map[])
  }

  lemma AddTallyEmpty(ds: seq<string>)
    ensures AddTally(map[], ds) == Tally(ds)
  {
  }

  lemma AddTallyStep(results: map<string, nat>, d: string, ds: seq<string>)
    ensures AddTally(Increment(results, d), ds) == AddTally(results, [d] + ds)
  {
    var lhs := AddTally(Increment(results, d), ds);
    var rhs := AddTally(results, [d] + ds);
    assert multiset([d] + ds) == multiset{d} + multiset(ds);
    assert (set e | e in [d] + ds) == {d} + (set e | e in ds);
    assert lhs.Keys == rhs.Keys;
    forall e | e in lhs.Keys
      ensures lhs[e] == rhs[e]
    {
      assert multiset([d] + ds)[e] == multiset{d}[e] + multiset(ds)[e];
    }
  }

  lemma {:induction false} GatherFromTimesOut(ms: seq<Message>, cpu: nat, done: nat, results: map<string, nat>)
    requires cpu == 0 || done + StopCount(ms) < cpu
    ensures GatherFrom(ms, cpu, done, results) == AddTally(results, ReportedDirs(ms))
    decreases |ms|
  {
    if ms == [] {
      assert AddTally(results, []) == results;
    } else {
      var m, tail := ms[0], ms[1..];
      assert ms == [m] + tail;
      ConsCounts(m, tail);
      match m
      case Stopped =>
        assert StopCount(ms) == StopCount(tail) + 1 && ReportedDirs(ms) == ReportedDirs(tail);
        GatherFromTimesOut(tail, cpu, done + 1, results);
      case Alive =>
        assert StopCount(ms) == StopCount(tail) && ReportedDirs(ms) == ReportedDirs(tail);
        GatherFromTimesOut(tail, cpu, done, results);
      case Match(d) =>
        assert StopCount(ms) == StopCount(tail) && ReportedDirs(ms) == [d] + ReportedDirs(tail);
        GatherFromTimesOut(tail, cpu, done, Increment(results, d));
        AddTallyStep(results, d, ReportedDirs(tail));
    }
  }

  lemma {:induction false} GatherFromStops(pre: seq<Message>, rest: seq<Message>, cpu: nat, done: nat, results: map<string, nat>)
    requires done + StopCount(pre) + 1 == cpu
    ensures GatherFrom(pre + [Stopped] + rest, cpu, done, results) == AddTally(results, ReportedDirs(pre))
    decreases |pre|
  {
    var ms := pre + [Stopped] + rest;
    if pre == [] {
      assert ms == [Stopped] + rest;
      assert AddTally(results, []) == results;
    } else {
      var m, tail := pre[0], pre[1..];
      var next := tail + [Stopped] + rest;
      assert pre == [m] + tail;
      assert ms[0] == m && ms[1..] == next;
      ConsCounts(m, tail);
      match m
      case Stopped =>
        assert StopCount(pre) == StopCount(tail) + 1 && ReportedDirs(pre) == ReportedDirs(tail);
        assert GatherFrom(ms, cpu, done, results) == GatherFrom(next, cpu, done + 1, results);
        GatherFromStops(tail, rest, cpu, done + 1, results);
      case Alive =>
        assert StopCount(pre) == StopCount(tail) && ReportedDirs(pre) == ReportedDirs(tail);
        assert GatherFrom(ms, cpu, done, results) == GatherFrom(next, cpu, done, results);
        GatherFromStops(tail, rest, cpu, done, results);
      case Match(d) =>
        assert StopCount(pre) == StopCount(tail) && ReportedDirs(pre) == [d] + ReportedDirs(tail);
        assert GatherFrom(ms, cpu, done, results) == GatherFrom(next, cpu, done, Increment(results, d));
        GatherFromStops(tail, rest, cpu, done, Increment(results, d));
        AddTallyStep(results, d, ReportedDirs(tail));
    }
  }

  /**
   When the stream ends before `cpu` workers have stopped (the timeout),
   the aggregator returns the partial counts: every directory reported so
   far with the number of times it was reported, and nothing else.
   */
  lemma GatherTimesOut(ms: seq<Message>, cpu: nat)
    requires cpu == 0 || StopCount(ms) < cpu
    ensures Gather(ms, cpu) == Tally(ReportedDirs(ms))
  {
    GatherFromTimesOut(ms, cpu, 0, map[]);
    AddTallyEmpty(ReportedDirs(ms));
  }

  /**
   The aggregator stops right after the `cpu`-th "stopped" message: the
   counts are those of the matches before it, and nothing after it is read.
   */
  lemma GatherEndsAtLastStop(pre: seq<Message>, rest: seq<Message>, cpu: nat)
    requires cpu >= 1 && StopCount(pre) == cpu - 1
    ensures Gather(pre + [Stopped] + rest, cpu) == Tally(ReportedDirs(pre))
  {
    GatherFromStops(pre, rest, cpu, 0, map[]);
    AddTallyEmpty(ReportedDirs(pre));
  }

  /** A stream that ends with the `cpu`-th stop is counted in full up to that stop. */
  lemma GatherEndsWithLastStop(pre: seq<Message>, cpu: nat)
    requires cpu >= 1 && StopCount(pre) == cpu - 1
    ensures Gather(pre + [Stopped], cpu) == Tally(ReportedDirs(pre))
  {
    assert pre + [Stopped] == pre + [Stopped] + [];
    GatherEndsAtLastStop(pre, [], cpu);
  }

  lemma {:induction false} GatherFromSkipsAlive(before: seq<Message>, after: seq<Message>, cpu: nat, done: nat, results: map<string, nat>)
    ensures GatherFrom(before + [Alive] + after, cpu, done, results) == GatherFrom(before + after, cpu, done, results)
    decreases |before|
  {
    if before == [] {
      assert before + [Alive] + after == [Alive] + after;
      assert before + after == after;
    } else {
      var m := before[0];
      assert (before + [Alive] + after)[1..] == before[1..] + [Alive] + after;
      assert (before + after)[1..] == before[1..] + after;
      match m
      case Stopped =>
        GatherFromSkipsAlive(before[1..], after, cpu, done + 1, results);
      case Alive =>
        GatherFromSkipsAlive(before[1..], after, cpu, done, results);
      case Match(d) =>
        GatherFromSkipsAlive(before[1..], after, cpu, done, Increment(results, d));
    }
  }

  /** A no-match or keep-alive signal never changes the result, wherever it arrives. */
  lemma AliveChangesNothing(before: seq<Message>, after: seq<Message>, cpu: nat)
    ensures Gather(before + [Alive] + after, cpu) == Gather(before + after, cpu)
  {
    GatherFromSkipsAlive(before, after, cpu, 0, map[]);
  }

  lemma TallyPermutation(a: seq<string>, b: seq<string>)
    requires multiset(a) == multiset(b)
    ensures Tally(a) == Tally(b)
  {
    assert forall d :: d in a <==> d in multiset(b);
  }

  /**
   The counts do not depend on the order in which messages arrive, whether
   the aggregator times out or stops at the last worker's "stopped" message.
   */
  lemma GatherIgnoresOrder(ms1: seq<Message>, ms2: seq<Message>, rest1: seq<Message>, rest2: seq<Message>, cpu: nat)
    requires multiset(ms1) == multiset(ms2)
    ensures StopCount(ms1) < cpu ==> Gather(ms1, cpu) == Gather(ms2, cpu)
    ensures cpu >= 1 && StopCount(ms1) == cpu - 1 ==>
              Gather(ms1 + [Stopped] + rest1, cpu) == Gather(ms2 + [Stopped] + rest2, cpu)
  {
    FilterMapPermutation(ms1, ms2, ReportedDir);
    TallyPermutation(ReportedDirs(ms1), ReportedDirs(ms2));
    if StopCount(ms1) < cpu {
      GatherTimesOut(ms1, cpu);
      GatherTimesOut(ms2, cpu);
    }
    if cpu >= 1 && StopCount(ms1) == cpu - 1 {
      GatherEndsAtLastStop(ms1, rest1, cpu);
      GatherEndsAtLastStop(ms2, rest2, cpu);
    }
  }

  lemma {:induction false} GatherFromGrows(ms: seq<Message>, cpu: nat, done: nat, results: map<string, nat>, d: string)
    ensures Count(GatherFrom(ms, cpu, done, results), d) >= Count(results, d)
    decreases |ms|
  {
    if ms != [] {
      match ms[0]
      case Stopped =>
        if done + 1 != cpu {
          GatherFromGrows(ms[1..], cpu, done + 1, results, d);
        }
      case Alive =>
        GatherFromGrows(ms[1..], cpu, done, results, d);
      case Match(e) =>
        GatherFromGrows(ms[1..], cpu, done, Increment(results, e), d);
    }
  }

  lemma {:induction false} GatherFromPrefix(ms: seq<Message>, k: nat, cpu: nat, done: nat, results: map<string, nat>, d: string)
    requires k <= |ms|
    ensures Count(GatherFrom(ms[..k], cpu, done, results), d) <= Count(GatherFrom(ms, cpu, done, results), d)
    decreases k
  {
    if k == 0 {
      GatherFromGrows(ms, cpu, done, results, d);
    } else {
      var cut := ms[..k];
      assert cut[0] == ms[0] && cut[1..] == ms[1..][..k - 1];
      match ms[0]
      case Stopped =>
        if done + 1 != cpu {
          GatherFromPrefix(ms[1..], k - 1, cpu, done + 1, results, d);
        }
      case Alive =>
        GatherFromPrefix(ms[1..], k - 1, cpu, done, results, d);
      case Match(e) =>
        GatherFromPrefix(ms[1..], k - 1, cpu, done, Increment(results, e), d);
    }
  }

  /**
   Partial results after a timeout never overcount: had the stream gone on,
   every count could only have grown.
   */
  lemma PartialResultsNeverOvercount(ms: seq<Message>, k: nat, cpu: nat, d: string)
    requires k <= |ms|
    ensures Count(Gather(ms[..k], cpu), d) <= Count(Gather(ms, cpu), d)
  {
    GatherFromPrefix(ms, k, cpu, 0, map[], d);
  }

  lemma {:induction false} GatherWireFromDecodes(rs: seq<string>, cpu: nat, done: nat, results: map<string, nat>)
    ensures GatherWireFrom(rs, cpu, done, results) == GatherFrom(DecodeAll(rs), cpu, done, results)
    decreases |rs|
  {
    if rs != [] {
      assert DecodeAll(rs)[1..] == DecodeAll(rs[1..]);
      var m := Decode(rs[0]);
      match m
      case Stopped =>
        GatherWireFromDecodes(rs[1..], cpu, done + 1, results);
      case Alive =>
        GatherWireFromDecodes(rs[1..], cpu, done, results);
      case Match(d) =>
        GatherWireFromDecodes(rs[1..], cpu, done, Increment(results, d));
    }
  }

  /** The aggregator as written is the typed aggregator reading each string through `Decode`. */
  lemma GatherWireDecodes(rs: seq<string>, cpu: nat)
    ensures GatherWire(rs, cpu) == Gather(DecodeAll(rs), cpu)
  {
    GatherWireFromDecodes(rs, cpu, 0, map[]);
  }

  /** As long as no matching directory is named like a control string, the wire changes nothing. */
  lemma GatherWireFaithful(ms: seq<Message>, cpu: nat)
    requires forall i :: 0 <= i < |ms| ==> !(ms[i].Match? && IsControl(ms[i].dir))
    ensures GatherWire(EncodeAll(ms), cpu) == Gather(ms, cpu)
  {
    forall i | 0 <= i < |ms|
      ensures Decode(Encode(ms[i])) == ms[i]
    {
      DecodeEncode(ms[i]);
    }
    assert DecodeAll(EncodeAll(ms)) == ms;
    GatherWireDecodes(EncodeAll(ms), cpu);
  }

  /**
   With one worker, a file matching in a directory called "---stopped---"
   ends the aggregation early and loses every later result; one matching in
   a directory called "---no match---" is not counted.
   */
  lemma ControlNamedDirectoryMiscounted()
    ensures Gather([Match(STOPPED), Match("a"), Stopped], 1) == map[STOPPED := 1, "a" := 1]
    ensures GatherWire(EncodeAll([Match(STOPPED), Match("a"), Stopped]), 1) == map[]
    ensures Gather([Match(NO_MATCH), Stopped], 1) == map[NO_MATCH := 1]
    ensures GatherWire(EncodeAll([Match(NO_MATCH), Stopped]), 1) == map[]
  {
    var ms := [Match(STOPPED), Match("a"), Stopped];
    assert ms[1..] == [Match("a"), Stopped] && ms[1..][1..] == [Stopped];
    assert "a" != STOPPED;
    assert Gather(ms, 1) == GatherFrom([Match("a"), Stopped], 1, 0, map[STOPPED := 1]);
    assert GatherFrom([Match("a"), Stopped], 1, 0, map[STOPPED := 1])
        == GatherFrom([Stopped], 1, 0, map[STOPPED := 1, "a" := 1]);
    assert EncodeAll(ms)[0] == STOPPED;
    var ns := [Match(NO_MATCH), Stopped];
    assert ns[1..] == [Stopped];
    assert NO_MATCH != STOPPED;
    assert Gather(ns, 1) == GatherFrom([Stopped], 1, 0, map[NO_MATCH := 1]);
    var ws := EncodeAll(ns);
    assert ws == [NO_MATCH, STOPPED];
    assert ws[1..] == [STOPPED];
    assert GatherWire(ws, 1) == GatherWireFrom([STOPPED], 1, 0, map[]);
  }
}

=== FILE: matcher.dfy ===
/**
 The per-file matcher `is_file_match` of findfiles.py.

 The regular expression is the abstract predicate `pattern` on lines. A
 file is what successive `readline` calls return: its lines, then either
 the end of the file or a read error. A file that cannot be opened at all
 behaves exactly like one whose first read fails (`Unopenable`).

 The matcher returns as soon as a line matches. It keeps a line counter
 that ticks once per successful `readline` after the first and, whenever
 the counter reaches 100000, puts one keep-alive on the result queue and
 resets the counter. Because the tick follows the read of the NEXT line, a
 read error right after the last non-matching line costs that line its tick.
 */
module Matcher {

  /** Lines between two keep-alive signals. */
  const KEEP_ALIVE_INTERVAL: nat := 100000

  /** A line as readline returns it; the empty string only ever means end of file. */
  type Line = s: string | s != [] witness "\n"

  datatype Ending = Eof | ReadError

  datatype FileContent = FileContent(lines: seq<Line>, ending: Ending)

  /** A file that cannot be opened: nothing is read. */
  const Unopenable: FileContent := FileContent([], ReadError)

  /** Whether the file matched, and how many keep-alives were sent while scanning it. */
  datatype MatchOutcome = MatchOutcome(found: bool, keepAlives: nat)

  /** Index of the first matching line, or the number of lines when none matches. */
  function FirstMatch(pattern: string -> bool, lines: seq<Line>): (r: nat)
    ensures r <= |lines|
    ensures forall k :: 0 <= k < r ==> !pattern(lines[k])
    ensures r < |lines| ==> pattern(lines[r])
  {
    if lines == [] then 0
    else if pattern(lines[0]) then 0
    else 1 + FirstMatch(pattern, lines[1..])
  }

  /** The number of counter ticks from line `i` on: one per successful readline that follows a non-matching line. */
  function Ticks(pattern: string -> bool, c: FileContent, i: nat): nat
    requires i <= |c.lines|
  {
    var rest := c.lines[i..];
    var first := FirstMatch(pattern, rest);
    if first < |rest| then first
    else if c.ending == ReadError && rest != [] then |rest| - 1
    else |rest|
  }

  lemma TicksStep(pattern: string -> bool, c: FileContent, i: nat)
    requires i < |c.lines| && !pattern(c.lines[i])
    requires !(i + 1 == |c.lines| && c.ending == ReadError)
    ensures Ticks(pattern, c, i) == 1 + Ticks(pattern, c, i + 1)
  {
    assert c.lines[i..][1..] == c.lines[i + 1..];
  }

  /**
   The scan loop from line `i` with the counter at `counter`. The counter
   never reaches the interval: each time it would, a keep-alive is sent and
   it starts again from zero.
   */
  function ScanFrom(pattern: string -> bool, c: FileContent, i: nat, counter: nat): (r: MatchOutcome)
    requires i <= |c.lines|
    requires counter < KEEP_ALIVE_INTERVAL
    ensures r.found <==> exists k :: i <= k < |c.lines| && pattern(c.lines[k])
    ensures r.keepAlives == (counter + Ticks(pattern, c, i)) / KEEP_ALIVE_INTERVAL
    decreases |c.lines| - i
  {
    if i == |c.lines| then MatchOutcome(false, 0)
    else if pattern(c.lines[i]) then MatchOutcome(true, 0)
    else if i + 1 == |c.lines| && c.ending == ReadError then MatchOutcome(false, 0)
    else
      TicksStep(pattern, c, i);
      if counter + 1 >= KEEP_ALIVE_INTERVAL then
        var r := ScanFrom(pattern, c, i + 1, 0);
        MatchOutcome(r.found, r.keepAlives + 1)
      else
        ScanFrom(pattern, c, i + 1, counter + 1)
  }

  /**
   is_file_match: true exactly when some line read matches. Keep-alives
   number one per 100000 ticks: the lines before the first match, or every
   line when nothing matches (less one when a read error ends the file).
   */
  function IsFileMatch(pattern: string -> bool, c: FileContent): (r: MatchOutcome)
    ensures r.found <==> exists k :: 0 <= k < |c.lines| && pattern(c.lines[k])
    ensures r.found ==> r.keepAlives == FirstMatch(pattern, c.lines) / KEEP_ALIVE_INTERVAL
    ensures !r.found && c.ending == Eof ==> r.keepAlives == |c.lines| / KEEP_ALIVE_INTERVAL
    ensures !r.found && c.ending == ReadError && c.lines != [] ==>
              r.keepAlives == (|c.lines| - 1) / KEEP_ALIVE_INTERVAL
    ensures c == Unopenable ==> r == MatchOutcome(false, 0)
  {
    assert c.lines[0..] == c.lines;
    ScanFrom(pattern, c, 0, 0)
  }

  /**
   Once a line matches, nothing after it is read: the outcome is the same
   whatever follows the first matching line and however the file ends.
   */
  lemma ShortCircuit(pattern: string -> bool, lines: seq<Line>, j: nat, more: seq<Line>, e: Ending, e': Ending)
    requires j < |lines| && pattern(lines[j])
    requires forall k :: 0 <= k < j ==> !pattern(lines[k])
    ensures IsFileMatch(pattern, FileContent(lines, e)) == MatchOutcome(true, j / KEEP_ALIVE_INTERVAL)
    ensures IsFileMatch(pattern, FileContent(lines[..j + 1] + more, e')) == MatchOutcome(true, j / KEEP_ALIVE_INTERVAL)
  {
    var cut := lines[..j + 1] + more;
    assert cut[j] == lines[j];
    assert FirstMatch(pattern, lines) == j;
    assert forall k :: 0 <= k < j ==> cut[k] == lines[k];
    assert FirstMatch(pattern, cut) == j;
  }
}

=== FILE: messages.dfy ===
/**
 The messages that travel on the two queues of findfiles.py.

 On the wire every message is a plain string: the task queue carries file
 paths and the sentinel "---STOP---"; the result queue carries matching
 directory paths, "---no match---" (both the per-file "no match" result
 and the keep-alive signal) and "---stopped---". The model reasons about
 results as the tagged union `Message`; `Encode` is exactly what a worker
 puts on the wire and `Decode` is exactly how the aggregator reads it back.
 The two meet in a round trip that fails only for a directory whose path
 is itself one of the control strings (see `ControlDirectoryCollides`).
 */
module Messages {
  import opened Seqs

  /** Task-queue sentinel that tells a worker to stop. */
  const STOP_TASK: string := "---STOP---"
  /** Result-queue string for "no match in this file" and for a keep-alive. */
  const NO_MATCH: string := "---no match---"
  /** Result-queue string a worker emits just before it exits. */
  const STOPPED: string := "---stopped---"

  datatype Message =
    | Match(dir: string)   // a file directly under `dir` matched
    | Alive                // no match in a file, or a keep-alive during a long scan
    | Stopped              // the emitting worker has taken its sentinel and exits

  predicate IsControl(s: string)
  {
    s == NO_MATCH || s == STOPPED
  }

  /** The string a worker puts on the result queue for `m`. */
  function Encode(m: Message): string
  {
    match m
    case Match(d) => d
    case Alive => NO_MATCH
    case Stopped => STOPPED
  }

  /** How gather_results classifies a string taken from the result queue. */
  function Decode(s: string): (m: Message)
    ensures Encode(m) == s
    ensures m.Match? <==> !IsControl(s)
  {
    if s == STOPPED then Stopped
    else if s != NO_MATCH then Match(s)
    else Alive
  }

  /** Every message except a match in a control-named directory survives the wire unchanged. */
  lemma DecodeEncode(m: Message)
    requires !(m.Match? && IsControl(m.dir))
    ensures Decode(Encode(m)) == m
  {
  }

  /** A matching directory whose path is a control string is read back as a control message. */
  lemma ControlDirectoryCollides()
    ensures Decode(Encode(Match(NO_MATCH))) == Alive
    ensures Decode(Encode(Match(STOPPED))) == Stopped
  {
  }

  function EncodeAll(ms: seq<Message>): (r: seq<string>)
    ensures |r| == |ms|
    ensures forall i :: 0 <= i < |ms| ==> r[i] == Encode(ms[i])
  {
    if ms == [] then [] else [Encode(ms[0])] + EncodeAll(ms[1..])
  }

  function DecodeAll(ss: seq<string>): (r: seq<Message>)
    ensures |r| == |ss|
    ensures forall i :: 0 <= i < |ss| ==> r[i] == Decode(ss[i])
  {
    if ss == [] then [] else [Decode(ss[0])] + DecodeAll(ss[1..])
  }

  /** The directory a message reports, if it reports one. */
  function ReportedDir(m: Message): Option<string>
  {
    if m.Match? then Some(m.dir) else None
  }

  /** The directories reported by the `Match` messages of `ms`, in order. */
  function ReportedDirs(ms: seq<Message>): seq<string>
  {
    FilterMap(ms, ReportedDir)
  }

  /** How many `Stopped` messages `ms` holds. */
  function StopCount(ms: seq<Message>): nat
  {
    multiset(ms)[Stopped]
  }

  lemma ReportedDirsOccurrences(ms: seq<Message>, d: string)
    ensures multiset(ReportedDirs(ms))[d] == multiset(ms)[Match(d)]
    decreases |ms|
  {
    if ms != [] {
      assert ms == [ms[0]] + ms[1..];
      ReportedDirsOccurrences(ms[1..], d);
    }
  }

  /** What one message in front of a stream adds to its stop count and its reported directories. */
  lemma ConsCounts(m: Message, ms: seq<Message>)
    ensures StopCount([m] + ms) == StopCount(ms) + (if m == Stopped then 1 else 0)
    ensures ReportedDirs([m] + ms) == (if m.Match? then [m.dir] else []) + ReportedDirs(ms)
  {
    assert multiset([m] + ms) == multiset{m} + multiset(ms);
    assert ([m] + ms)[1..] == ms;
  }
}

=== FILE: paths.dfy ===
/**
 The two POSIX path operations findfiles.py relies on, as Python's
 posixpath module defines them: `os.path.join` with two arguments (used by
 the directory walk) and `os.path.dirname` (used by a worker to name the
 directory of a matching file).
 */
module Paths {

  /** A directory entry name as a listing returns it: non-empty, no separator. */
  predicate ValidName(name: string)
  {
    name != [] && '/' !in name
  }

  predicate EndsWithSlash(s: string)
  {
    s != [] && s[|s| - 1] == '/'
  }

  predicate AllSlashes(s: string)
  {
    forall k :: 0 <= k < |s| ==> s[k] == '/'
  }

  /** os.path.join(a, b): an absolute `b` replaces `a`; otherwise a separator is added when needed. */
  function Join(a: string, b: string): string
  {
    if b != [] && b[0] == '/' then b
    else if a == [] || EndsWithSlash(a) then a + b
    else a + "/" + b
  }

  /** What `Join(a, name)` puts in front of a relative name. */
  function JoinPrefix(a: string): (r: string)
    ensures r == [] || EndsWithSlash(r)
  {
    if a == [] || EndsWithSlash(a) then a else a + "/"
  }

  /** str.rfind('/'): the index of the last separator, or -1. */
  function LastSlash(p: string): (r: int)
    ensures -1 <= r < |p|
    ensures r >= 0 ==> p[r] == '/'
    ensures forall k :: r < k < |p| ==> p[k] != '/'
  {
    if p == [] then -1
    else if p[|p| - 1] == '/' then |p| - 1
    else LastSlash(p[..|p| - 1])
  }

  /** str.rstrip('/'). */
  function StripTrailingSlashes(s: string): (r: string)
    ensures |r| <= |s| && r == s[..|r|]
    ensures !EndsWithSlash(r)
    ensures AllSlashes(s[|r|..])
  {
    if EndsWithSlash(s) then
      var shorter := s[..|s| - 1];
      var r := StripTrailingSlashes(shorter);
      assert r == s[..|r|] by {
        assert shorter[..|r|] == s[..|r|];
      }
      assert AllSlashes(s[|r|..]) by {
        forall k | 0 <= k < |s[|r|..]|
          ensures s[|r|..][k] == '/'
        {
          if |r| + k < |shorter| {
            assert s[|r|..][k] == shorter[|r|..][k];
          }
        }
      }
      r
    else s
  }

  /** os.path.dirname(p): everything before the last separator, trailing separators removed unless that leaves nothing but separators. */
  function Dirname(p: string): (r: string)
    ensures |r| <= |p| && r == p[..|r|]
    ensures '/' !in p ==> r == []
  {
    var head := p[..LastSlash(p) + 1];
    if head != [] && !AllSlashes(head) then StripTrailingSlashes(head) else head
  }

  /** Joining a valid entry name appends it to a prefix that depends on the parent only. */
  lemma JoinValidName(parent: string, name: string)
    requires ValidName(name)
    ensures Join(parent, name) == JoinPrefix(parent) + name
  {
  }

  /**
   os.path.join keeps both of its arguments: the result ends with `b`, and
   begins with `a` unless `b` is absolute.
   */
  lemma JoinKeepsParts(a: string, b: string)
    ensures |b| <= |Join(a, b)| && Join(a, b)[|Join(a, b)| - |b|..] == b
    ensures b == [] || b[0] != '/' ==> |a| <= |Join(a, b)| && Join(a, b)[..|a|] == a
  {
  }

  /** The last component of a joined valid name, everything after its last separator, is that name. */
  lemma JoinLastComponent(parent: string, name: string)
    requires ValidName(name)
    ensures var p := Join(parent, name);
            p[LastSlash(p) + 1..] == name
  {
    JoinValidName(parent, name);
    JoinHead(parent, name);
  }

  /** The joined path of a valid name under a non-empty parent always holds a separator. */
  lemma JoinHasSlash(parent: string, name: string)
    requires parent != [] && ValidName(name)
    ensures '/' in Join(parent, name)
  {
    var p := JoinPrefix(parent);
    assert p[|p| - 1] == '/';
    assert Join(parent, name)[|p| - 1] == '/';
  }

  lemma {:induction false} LastSlashAppend(s: string, tail: string)
    requires '/' !in tail
    ensures LastSlash(s + tail) == LastSlash(s)
    decreases |tail|
  {
    if tail != [] {
      var t := tail[..|tail| - 1];
      assert (s + tail)[..|s + tail| - 1] == s + t;
      assert tail[|tail| - 1] in tail;
      LastSlashAppend(s, t);
    } else {
      assert s + tail == s;
    }
  }

  /** Everything up to the last separator of a joined valid name is the join prefix. */
  lemma JoinHead(parent: string, name: string)
    requires ValidName(name)
    ensures var p := Join(parent, name);
            p[..LastSlash(p) + 1] == JoinPrefix(parent)
  {
    var prefix := JoinPrefix(parent);
    var p := Join(parent, name);
    JoinValidName(parent, name);
    LastSlashAppend(prefix, name);
    if prefix == [] {
      assert LastSlash(prefix) == -1;
    } else {
      assert LastSlash(prefix) == |prefix| - 1;
    }
    assert p[..|prefix|] == prefix;
  }

  /** Stripping a single added separator from a path that does not end in one gives the path back. */
  lemma StripAddedSlash(parent: string)
    requires parent != [] && !EndsWithSlash(parent)
    ensures StripTrailingSlashes(parent + "/") == parent
    ensures !AllSlashes(parent + "/")
  {
    var q := parent + "/";
    assert q[..|q| - 1] == parent;
    assert q[|parent| - 1] == parent[|parent| - 1] != '/';
  }

  /**
   The directory a worker reports for a file it found by joining `name`
   onto `parent`: the parent itself, less any trailing separators (a parent
   made only of separators is kept as it is).
   */
  lemma DirnameOfJoin(parent: string, name: string)
    requires ValidName(name)
    ensures Dirname(Join(parent, name)) == (if AllSlashes(parent) then parent else StripTrailingSlashes(parent))
    ensures parent != [] && !EndsWithSlash(parent) ==> Dirname(Join(parent, name)) == parent
  {
    var head := JoinPrefix(parent);
    JoinHead(parent, name);
    assert Dirname(Join(parent, name)) == if head != [] && !AllSlashes(head) then StripTrailingSlashes(head) else head;
    if parent != [] && !EndsWithSlash(parent) {
      StripAddedSlash(parent);
      assert !AllSlashes(parent) by {
        assert parent[|parent| - 1] != '/';
      }
    }
  }
}

=== FILE: pipeline.dfy ===
/**
 One whole run of findfiles.py (`main`): walk the tree below the root,
 let the pool of workers scan the enqueued files, stop the pool, and gather
 the results. Every directory of the final map is counted once per
 matching file directly in it, however many workers there are, however
 the queue is shared out and in whatever order results arrive.
 */
module Pipeline {
  import opened Paths
  import opened Messages
  import opened Matcher
  import opened Walker
  import opened WorkerLoop
  import opened Aggregator
  import opened Pool

  /** The run with a single worker: its tasks are the walk followed by one sentinel. */
  function RunSingle(pattern: string -> bool, fs: string -> FileContent, root: string, t: Tree): map<string, nat>
  {
    Gather(Worker(pattern, fs, TerminatePool(FindFiles(root, t), 1)), 1)
  }

  /**
   With a single worker the final map counts, for each directory, the
   matching files of the walk that lie in it, and holds no other key.
   */
  lemma SingleWorkerRun(pattern: string -> bool, fs: string -> FileContent, root: string, t: Tree, d: string)
    requires root != [] && WellFormed(t)
    ensures Count(RunSingle(pattern, fs, root, t), d) == CountMatchingIn(pattern, fs, FindFiles(root, t), d)
    ensures d in RunSingle(pattern, fs, root, t) ==> RunSingle(pattern, fs, root, t)[d] >= 1
  {
    var paths := FindFiles(root, t);
    NoTaskIsSentinel(root, t);
    SingleWorkerCounts(pattern, fs, paths);
    MatchingFileDirsCount(pattern, fs, paths, d);
  }

  /**
   With a pool of `n` workers, under any legal sharing of the task queue
   and any arrival order of their results, the final map is the one the
   single worker produces.
   */
  lemma PoolRun(pattern: string -> bool, fs: string -> FileContent, root: string, t: Tree,
                n: nat, takers: seq<nat>, merged: seq<Message>)
    requires root != [] && WellFormed(t)
    requires n >= 1
    requires LegalSchedule(TerminatePool(FindFiles(root, t), n), takers, n)
    requires Interleaving(merged, WorkerOutputs(pattern, fs, Shares(TerminatePool(FindFiles(root, t), n), takers, n)))
    ensures Gather(merged, n) == RunSingle(pattern, fs, root, t)
  {
    NoTaskIsSentinel(root, t);
    PoolSizeIrrelevant(pattern, fs, FindFiles(root, t), n, takers, merged);
  }

  /**
   The keys of the final map are walked directories: each matching file is
   counted under the path the walk gave its parent directory, whenever
   `dirname` keeps the root as written.
   */
  lemma ReportedUnderWalkedParent(pattern: string -> bool, fs: string -> FileContent, root: string, t: Tree, route: seq<string>)
    requires DirnameKeepsRoot(root) && WellFormed(t)
    requires FileAt(t, route) && IsFileMatch(pattern, fs(PathOf(root, route))).found
    ensures PathOf(root, route[..|route| - 1]) in RunSingle(pattern, fs, root, t)
  {
    var p := PathOf(root, route);
    var parent := PathOf(root, route[..|route| - 1]);
    var paths := FindFiles(root, t);
    FindFilesComplete(root, t, route);
    ReportedDirectoryIsParent(root, t, route);
    var k :| 0 <= k < |paths| && paths[k] == p;
    CountedFileCounts(pattern, fs, paths, k, parent);
    SingleWorkerRun(pattern, fs, root, t, parent);
  }

  /**
   Every matching directory that reaches the aggregator is the `dirname` of
   a walked file, so it is not a control string when the root, less its
   trailing separators, is not one.
   */
  lemma ReportedDirectoryNotControl(pattern: string -> bool, fs: string -> FileContent, root: string, t: Tree,
                                    n: nat, takers: seq<nat>, merged: seq<Message>)
    requires root != [] && !IsControl(StripTrailingSlashes(root)) && WellFormed(t)
    requires LegalSchedule(TerminatePool(FindFiles(root, t), n), takers, n)
    requires Interleaving(merged, WorkerOutputs(pattern, fs, Shares(TerminatePool(FindFiles(root, t), n), takers, n)))
    ensures forall i :: 0 <= i < |merged| && merged[i].Match? ==> !IsControl(merged[i].dir)
  {
    var paths := FindFiles(root, t);
    NoTaskIsSentinel(root, t);
    PoolReportsMatchingFileDirs(pattern, fs, paths, n, takers, merged);
    forall i | 0 <= i < |merged| && merged[i].Match?
      ensures !IsControl(merged[i].dir)
    {
      MatchNotControl(pattern, fs, root, t, paths, merged, i);
    }
  }

  /** One received match whose directory occurs among the walked matches is not a control string. */
  lemma MatchNotControl(pattern: string -> bool, fs: string -> FileContent, root: string, t: Tree,
                        paths: seq<string>, merged: seq<Message>, i: nat)
    requires root != [] && !IsControl(StripTrailingSlashes(root)) && WellFormed(t)
    requires paths == FindFiles(root, t)
    requires multiset(ReportedDirs(merged)) == multiset(MatchingFileDirs(pattern, fs, paths))
    requires i < |merged| && merged[i].Match?
    ensures !IsControl(merged[i].dir)
  {
    var d := merged[i].dir;
    ReportedDirsOccurrences(merged, d);
    MatchingFileDirsCount(pattern, fs, paths, d);
    var k := CountedFileWitness(pattern, fs, paths, d);
    TaskParentNotControl(root, t, paths[k]);
  }

  /**
   The program as written: the string-comparing aggregator, reading what
   the workers put on the result queue, produces the map of the single
   worker run, whenever the root, less its trailing separators, is not a
   control string.
   */
  lemma PoolRunAsWritten(pattern: string -> bool, fs: string -> FileContent, root: string, t: Tree,
                         n: nat, takers: seq<nat>, merged: seq<Message>)
    requires root != [] && !IsControl(StripTrailingSlashes(root)) && WellFormed(t)
    requires n >= 1
    requires LegalSchedule(TerminatePool(FindFiles(root, t), n), takers, n)
    requires Interleaving(merged, WorkerOutputs(pattern, fs, Shares(TerminatePool(FindFiles(root, t), n), takers, n)))
    ensures GatherWire(EncodeAll(merged), n) == RunSingle(pattern, fs, root, t)
  {
    ReportedDirectoryNotControl(pattern, fs, root, t, n, takers, merged);
    GatherWireFaithful(merged, n);
    PoolRun(pattern, fs, root, t, n, takers, merged);
  }
}

=== FILE: pool.dfy ===
/**
 The worker pool of findfiles.py: `terminate_pool`, and how the task queue
 is shared among `cpu_count` workers whose results meet at the aggregator.

 The queue holds the walked paths followed by one sentinel per worker.
 Which worker takes which item is up to the scheduler; the model takes the
 schedule as an argument (`takers[k]` is the worker whose `get` returns
 item k) and requires only what the queue guarantees: each item is taken
 once, and a worker takes nothing after its sentinel. The aggregator sees
 the workers' outputs interleaved in any order that keeps each worker's
 own order.
 */
module Pool {
  import opened Seqs
  import opened Messages
  import opened Matcher
  import opened WorkerLoop
  import opened Aggregator

  /** The task queue after terminate_pool: the queued tasks, then one sentinel per worker. */
  function TerminatePool(queue: seq<string>, cpu: nat): (r: seq<string>)
    ensures |r| == |queue| + cpu
    ensures r[..|queue|] == queue
    ensures forall k :: |queue| <= k < |r| ==> r[k] == STOP_TASK
    ensures multiset(r)[STOP_TASK] == multiset(queue)[STOP_TASK] + cpu
  {
    var stops := Repeat(STOP_TASK, cpu);
    assert multiset(stops)[STOP_TASK] == cpu by {
      assert stops == Repeat(STOP_TASK, cpu);
      SentinelCount(cpu);
    }
    assert (queue + stops)[..|queue|] == queue;
    queue + stops
  }

  lemma {:induction false} SentinelCount(cpu: nat)
    ensures multiset(Repeat(STOP_TASK, cpu))[STOP_TASK] == cpu
  {
    if cpu > 0 {
      assert Repeat(STOP_TASK, cpu) == [STOP_TASK] + Repeat(STOP_TASK, cpu - 1);
      SentinelCount(cpu - 1);
    }
  }

  /** Every taker names one of the `n` workers. */
  predicate ValidTakers(takers: seq<nat>, n: nat)
  {
    forall k :: 0 <= k < |takers| ==> takers[k] < n
  }

  /**
   The items each of the `n` workers takes, in the order it takes them,
   when item k of `items` goes to worker `takers[k]`.
   */
  function Shares<T>(items: seq<T>, takers: seq<nat>, n: nat): (r: seq<seq<T>>)
    requires |takers| == |items| && ValidTakers(takers, n)
    ensures |r| == n
  {
    if items == [] then Repeat([], n)
    else
      var rest := Shares(items[1..], takers[1..], n);
      rest[takers[0] := [items[0]] + rest[takers[0]]]
  }

  /**
   What the task queue guarantees of a schedule: every item is taken by one
   of the `n` workers, and a worker that has taken a sentinel takes nothing more.
   */
  predicate LegalSchedule(queue: seq<string>, takers: seq<nat>, n: nat)
  {
    && |takers| == |queue|
    && ValidTakers(takers, n)
    && forall k1, k2 :: 0 <= k1 < k2 < |takers| && takers[k1] == takers[k2] ==> queue[k1] != STOP_TASK
  }

  /** `merged` is the streams of `streams` interleaved, each stream's own order kept. */
  ghost predicate Interleaving<T>(merged: seq<T>, streams: seq<seq<T>>)
    decreases |merged|
  {
    if merged == [] then forall i :: 0 <= i < |streams| ==> streams[i] == []
    else exists i :: 0 <= i < |streams| && streams[i] != [] && streams[i][0] == merged[0] &&
                      Interleaving(merged[1..], streams[i := streams[i][1..]])
  }

  /** What each worker puts on the result queue, given the tasks it takes. */
  function WorkerOutputs(pattern: string -> bool, fs: string -> FileContent, shares: seq<seq<string>>): (r: seq<seq<Message>>)
    ensures |r| == |shares|
    ensures forall w :: 0 <= w < |shares| ==> r[w] == Worker(pattern, fs, shares[w])
  {
    seq(|shares|, w requires 0 <= w < |shares| => Worker(pattern, fs, shares[w]))
  }

  /** Sharing out the queue loses and duplicates nothing. */
  lemma {:induction false} SharesPartition<T>(items: seq<T>, takers: seq<nat>, n: nat)
    requires |takers| == |items| && ValidTakers(takers, n)
    ensures multiset(Flatten(Shares(items, takers, n))) == multiset(items)
  {
    if items == [] {
      FlattenEmpties<T>(Repeat<seq<T>>([], n));
    } else {
      var rest := Shares(items[1..], takers[1..], n);
      var w := takers[0];
      var v := [items[0]] + rest[w];
      SharesPartition(items[1..], takers[1..], n);
      FlattenUpdate(rest, w, v);
      PrependCancel(multiset(Flatten(rest[w := v])), rest[w], multiset(Flatten(rest)), items);
    }
  }

  lemma PrependCancel<T>(a: multiset<T>, before: seq<T>, b: multiset<T>, items: seq<T>)
    requires items != []
    requires a + multiset(before) == b + multiset([items[0]] + before)
    requires b == multiset(items[1..])
    ensures a == multiset(items)
  {
    var x := items[0];
    assert multiset([x] + before) == multiset{x} + multiset(before);
    assert a + multiset(before) == (b + multiset{x}) + multiset(before);
    MultisetCancel(a, b + multiset{x}, multiset(before));
    assert items == [x] + items[1..];
    assert multiset(items) == multiset{x} + multiset(items[1..]);
  }

  /** Each worker takes its items in queue order: sharing a concatenation shares each part. */
  lemma {:induction false} SharesAppend<T>(a: seq<T>, ta: seq<nat>, b: seq<T>, tb: seq<nat>, n: nat, w: nat)
    requires |ta| == |a| && ValidTakers(ta, n)
    requires |tb| == |b| && ValidTakers(tb, n)
    requires w < n
    ensures ValidTakers(ta + tb, n)
    ensures Shares(a + b, ta + tb, n)[w] == Shares(a, ta, n)[w] + Shares(b, tb, n)[w]
  {
    assert ValidTakers(ta + tb, n);
    if a == [] {
      assert a + b == b && ta + tb == tb;
    } else {
      assert (a + b)[1..] == a[1..] + b && (ta + tb)[1..] == ta[1..] + tb;
      SharesAppend(a[1..], ta[1..], b, tb, n, w);
    }
  }

  lemma {:induction false} SharesOfSentinels(m: nat, tb: seq<nat>, n: nat, w: nat)
    requires |tb| == m && ValidTakers(tb, n) && w < n
    ensures Shares(Repeat(STOP_TASK, m), tb, n)[w] == Repeat(STOP_TASK, multiset(tb)[w])
  {
    if m > 0 {
      assert Repeat(STOP_TASK, m)[1..] == Repeat(STOP_TASK, m - 1);
      assert tb == [tb[0]] + tb[1..];
      assert multiset(tb) == multiset{tb[0]} + multiset(tb[1..]);
      SharesOfSentinels(m - 1, tb[1..], n, w);
    }
  }

  lemma {:induction false} SharesFromItems<T>(items: seq<T>, takers: seq<nat>, n: nat, w: nat, x: T)
    requires |takers| == |items| && ValidTakers(takers, n) && w < n
    requires x in Shares(items, takers, n)[w]
    ensures x in items
  {
    if items != [] {
      var rest := Shares(items[1..], takers[1..], n);
      if x in rest[w] {
        SharesFromItems(items[1..], takers[1..], n, w, x);
      }
    }
  }

  /** The numbers 0 .. n-1. */
  function Below(n: nat): (r: set<nat>)
    ensures |r| == n
    ensures forall i: nat :: i in r <==> i < n
  {
    if n == 0 then {} else
      var r := Below(n - 1);
      assert n - 1 !in r;
      r + {n - 1}
  }

  /** Distinct values drawn from a set are no more numerous than the set. */
  lemma {:induction false} DistinctBound(s: seq<nat>, a: set<nat>)
    requires Distinct(s)
    requires forall k :: 0 <= k < |s| ==> s[k] in a
    ensures |s| <= |a|
  {
    if s != [] {
      var rest := a - {s[0]};
      assert |rest| == |a| - 1;
      forall k | 0 <= k < |s[1..]|
        ensures s[1..][k] in rest
      {
        assert s[1..][k] == s[k + 1] != s[0];
      }
      DistinctBound(s[1..], rest);
    }
  }

  /** Pigeonhole: a distinct sequence of n values below n holds each of them exactly once. */
  lemma EachWorkerOnce(tb: seq<nat>, n: nat, w: nat)
    requires |tb| == n && ValidTakers(tb, n) && Distinct(tb) && w < n
    ensures multiset(tb)[w] == 1
  {
    if w !in tb {
      DistinctBound(tb, Below(n) - {w});
      assert false;
    }
    var k :| 0 <= k < |tb| && tb[k] == w;
    DistinctOccursOnce(tb, k);
  }

  lemma DistinctOccursOnce<T>(s: seq<T>, k: nat)
    requires Distinct(s) && k < |s|
    ensures multiset(s)[s[k]] == 1
  {
    var x := s[k];
    assert s == s[..k] + [x] + s[k + 1..];
    assert x !in s[..k] && x !in s[k + 1..];
    assert multiset(s) == multiset(s[..k]) + multiset{x} + multiset(s[k + 1..]);
  }

  /** Under a legal schedule each worker takes its share of the paths, then exactly one sentinel. */
  lemma WorkerShare(paths: seq<string>, n: nat, takers: seq<nat>, ta: seq<nat>, w: nat)
    requires STOP_TASK !in paths
    requires LegalSchedule(TerminatePool(paths, n), takers, n)
    requires ta == takers[..|paths|] && ValidTakers(ta, n)
    requires w < n
    ensures Shares(TerminatePool(paths, n), takers, n)[w] == Shares(paths, ta, n)[w] + [STOP_TASK]
    ensures STOP_TASK !in Shares(paths, ta, n)[w]
  {
    var queue := TerminatePool(paths, n);
    var tb := takers[|paths|..];
    assert takers == ta + tb;
    assert queue == paths + Repeat(STOP_TASK, n);
    assert ValidTakers(tb, n);
    SharesAppend(paths, ta, Repeat(STOP_TASK, n), tb, n, w);
    SentinelPerWorker(paths, n, takers, w);
    SharesOfSentinels(n, tb, n, w);
    assert Repeat(STOP_TASK, 1) == [STOP_TASK];
    if STOP_TASK in Shares(paths, ta, n)[w] {
      SharesFromItems(paths, ta, n, w, STOP_TASK);
      assert false;
    }
  }

  /** Under a legal schedule no worker takes two sentinels. */
  lemma SentinelTakersDistinct(paths: seq<string>, n: nat, takers: seq<nat>)
    requires LegalSchedule(TerminatePool(paths, n), takers, n)
    ensures Distinct(takers[|paths|..])
  {
    var queue := TerminatePool(paths, n);
    var tb := takers[|paths|..];
    forall i, j | 0 <= i < j < |tb|
      ensures tb[i] != tb[j]
    {
      assert tb[i] == takers[|paths| + i] && tb[j] == takers[|paths| + j];
      assert queue[|paths| + i] == STOP_TASK;
    }
  }

  /** Under a legal schedule each of the `n` workers takes exactly one of the `n` sentinels. */
  lemma SentinelPerWorker(paths: seq<string>, n: nat, takers: seq<nat>, w: nat)
    requires LegalSchedule(TerminatePool(paths, n), takers, n)
    requires w < n
    ensures multiset(takers[|paths|..])[w] == 1
  {
    var tb := takers[|paths|..];
    assert ValidTakers(tb, n) by {
      forall k | 0 <= k < |tb|
        ensures tb[k] < n
      {
        assert tb[k] == takers[|paths| + k];
      }
    }
    SentinelTakersDistinct(paths, n, takers);
    EachWorkerOnce(tb, n, w);
  }

  lemma InterleaveStep<T>(x: T, tail: seq<T>, s: seq<T>, next: multiset<T>, all: multiset<T>)
    requires s != [] && s[0] == x
    requires multiset(tail) == next
    requires next + multiset(s) == all + multiset(s[1..])
    ensures multiset([x] + tail) == all
  {
    assert s == [x] + s[1..];
    assert multiset(s) == multiset{x} + multiset(s[1..]);
    assert multiset([x] + tail) == multiset{x} + multiset(tail);
    MultisetCancel(multiset([x] + tail), all, multiset(s[1..]));
  }

  /** The stream the first merged element comes from. */
  lemma FirstFrom<T>(merged: seq<T>, streams: seq<seq<T>>) returns (i: nat)
    requires Interleaving(merged, streams) && merged != []
    ensures i < |streams| && streams[i] != [] && streams[i][0] == merged[0]
    ensures Interleaving(merged[1..], streams[i := streams[i][1..]])
  {
    i :| 0 <= i < |streams| && streams[i] != [] && streams[i][0] == merged[0] &&
         Interleaving(merged[1..], streams[i := streams[i][1..]]);
  }

  lemma {:induction false} InterleavingMultiset<T>(merged: seq<T>, streams: seq<seq<T>>)
    requires Interleaving(merged, streams)
    ensures multiset(merged) == multiset(Flatten(streams))
    decreases |merged|
  {
    if merged == [] {
      FlattenEmpties(streams);
    } else {
      var i := FirstFrom(merged, streams);
      var s := streams[i];
      var next := streams[i := s[1..]];
      InterleavingMultiset(merged[1..], next);
      FlattenUpdate(streams, i, s[1..]);
      assert merged == [merged[0]] + merged[1..];
      InterleaveStep(merged[0], merged[1..], s, multiset(Flatten(next)), multiset(Flatten(streams)));
    }
  }

  lemma {:induction false} InterleavingLast<T>(merged: seq<T>, streams: seq<seq<T>>)
    requires Interleaving(merged, streams) && merged != []
    ensures exists i :: 0 <= i < |streams| && streams[i] != [] && streams[i][|streams[i]| - 1] == merged[|merged| - 1]
    decreases |merged|
  {
    var i :| 0 <= i < |streams| && streams[i] != [] && streams[i][0] == merged[0] &&
              Interleaving(merged[1..], streams[i := streams[i][1..]]);
    var s := streams[i];
    var next := streams[i := s[1..]];
    if merged[1..] == [] {
      assert next[i] == [];
      assert s == [merged[0]];
    } else {
      InterleavingLast(merged[1..], next);
      var j :| 0 <= j < |next| && next[j] != [] && next[j][|next[j]| - 1] == merged[1..][|merged[1..]| - 1];
      if j == i {
        assert s[|s| - 1] == next[j][|next[j]| - 1];
      } else {
        assert streams[j] == next[j];
      }
    }
  }

  lemma {:induction false} FlattenStopCount(ss: seq<seq<Message>>)
    requires forall w :: 0 <= w < |ss| ==> StopCount(ss[w]) == 1
    ensures StopCount(Flatten(ss)) == |ss|
  {
    if ss != [] {
      FlattenStopCount(ss[1..]);
      assert multiset(ss[0] + Flatten(ss[1..])) == multiset(ss[0]) + multiset(Flatten(ss[1..]));
    }
  }

  lemma {:induction false} FlattenReportedDirs(pattern: string -> bool, fs: string -> FileContent, outs: seq<seq<Message>>, shares: seq<seq<string>>)
    requires |outs| == |shares|
    requires forall w :: 0 <= w < |outs| ==> ReportedDirs(outs[w]) == MatchingFileDirs(pattern, fs, shares[w])
    ensures ReportedDirs(Flatten(outs)) == MatchingFileDirs(pattern, fs, Flatten(shares))
  {
    if outs != [] {
      FlattenReportedDirs(pattern, fs, outs[1..], shares[1..]);
      FilterMapAppend(outs[0], Flatten(outs[1..]), ReportedDir);
      FilterMapAppend(shares[0], Flatten(shares[1..]), p => MatchingFileDir(pattern, fs, p));
    }
  }

  /** With a single worker, the counts are those of the matching files' directories. */
  lemma SingleWorkerCounts(pattern: string -> bool, fs: string -> FileContent, paths: seq<string>)
    requires STOP_TASK !in paths
    ensures Gather(Worker(pattern, fs, TerminatePool(paths, 1)), 1) == Tally(MatchingFileDirs(pattern, fs, paths))
  {
    assert TerminatePool(paths, 1) == paths + [STOP_TASK] by {
      assert Repeat(STOP_TASK, 1) == [STOP_TASK];
    }
    var before := Worker(pattern, fs, paths);
    WorkerEndsAtSentinel(pattern, fs, paths);
    WorkerBeforeSentinel(pattern, fs, paths);
    GatherEndsWithLastStop(before, 1);
  }

  /** A worker that takes some tasks and then its sentinel reports their matches and then stops, once. */
  lemma WorkerOutput(pattern: string -> bool, fs: string -> FileContent, tasks: seq<string>, out: seq<Message>)
    requires STOP_TASK !in tasks
    requires out == Worker(pattern, fs, tasks + [STOP_TASK])
    ensures StopCount(out) == 1
    ensures out != [] && out[|out| - 1] == Stopped
    ensures ReportedDirs(out) == MatchingFileDirs(pattern, fs, tasks)
  {
    var before := Worker(pattern, fs, tasks);
    WorkerEndsAtSentinel(pattern, fs, tasks);
    WorkerReports(pattern, fs, tasks);
    FilterMapAppend(before, [Stopped], ReportedDir);
    FilterMapSingleton(Stopped, ReportedDir);
  }

  /** What the workers put, each stream ending in its single "stopped" message. */
  lemma PoolOutputs(pattern: string -> bool, fs: string -> FileContent, paths: seq<string>,
                    n: nat, takers: seq<nat>, outs: seq<seq<Message>>, mine: seq<seq<string>>)
    requires STOP_TASK !in paths
    requires LegalSchedule(TerminatePool(paths, n), takers, n)
    requires outs == WorkerOutputs(pattern, fs, Shares(TerminatePool(paths, n), takers, n))
    requires ValidTakers(takers[..|paths|], n) && mine == Shares(paths, takers[..|paths|], n)
    ensures |outs| == |mine| == n
    ensures forall w :: 0 <= w < n ==> StopCount(outs[w]) == 1
    ensures forall w :: 0 <= w < n ==> outs[w] != [] && outs[w][|outs[w]| - 1] == Stopped
    ensures forall w :: 0 <= w < n ==> ReportedDirs(outs[w]) == MatchingFileDirs(pattern, fs, mine[w])
  {
    var shares := Shares(TerminatePool(paths, n), takers, n);
    SharesEndInSentinel(paths, n, takers, shares, mine);
    OutputsOfShares(pattern, fs, shares, mine, outs);
  }

  /** Under a legal schedule every worker's share is its own tasks followed by one sentinel. */
  lemma SharesEndInSentinel(paths: seq<string>, n: nat, takers: seq<nat>, shares: seq<seq<string>>, mine: seq<seq<string>>)
    requires STOP_TASK !in paths
    requires LegalSchedule(TerminatePool(paths, n), takers, n)
    requires shares == Shares(TerminatePool(paths, n), takers, n)
    requires ValidTakers(takers[..|paths|], n) && mine == Shares(paths, takers[..|paths|], n)
    ensures |shares| == |mine| == n
    ensures forall w :: 0 <= w < n ==> STOP_TASK !in mine[w] && shares[w] == mine[w] + [STOP_TASK]
  {
    forall w | 0 <= w < n
      ensures STOP_TASK !in mine[w] && shares[w] == mine[w] + [STOP_TASK]
    {
      WorkerShare(paths, n, takers, takers[..|paths|], w);
    }
  }

  lemma OutputsOfShares(pattern: string -> bool, fs: string -> FileContent, shares: seq<seq<string>>,
                        mine: seq<seq<string>>, outs: seq<seq<Message>>)
    requires |shares| == |mine|
    requires forall w :: 0 <= w < |mine| ==> STOP_TASK !in mine[w] && shares[w] == mine[w] + [STOP_TASK]
    requires outs == WorkerOutputs(pattern, fs, shares)
    ensures |outs| == |mine|
    ensures forall w :: 0 <= w < |mine| ==> StopCount(outs[w]) == 1
    ensures forall w :: 0 <= w < |mine| ==> outs[w] != [] && outs[w][|outs[w]| - 1] == Stopped
    ensures forall w :: 0 <= w < |mine| ==> ReportedDirs(outs[w]) == MatchingFileDirs(pattern, fs, mine[w])
  {
    forall w | 0 <= w < |mine|
      ensures StopCount(outs[w]) == 1
      ensures outs[w] != [] && outs[w][|outs[w]| - 1] == Stopped
      ensures ReportedDirs(outs[w]) == MatchingFileDirs(pattern, fs, mine[w])
    {
      OneOutput(pattern, fs, shares[w], mine[w], outs[w]);
    }
  }

  lemma OneOutput(pattern: string -> bool, fs: string -> FileContent, share: seq<string>, own: seq<string>, out: seq<Message>)
    requires STOP_TASK !in own && share == own + [STOP_TASK]
    requires out == Worker(pattern, fs, share)
    ensures StopCount(out) == 1
    ensures out != [] && out[|out| - 1] == Stopped
    ensures ReportedDirs(out) == MatchingFileDirs(pattern, fs, own)
  {
    WorkerOutput(pattern, fs, own, out);
  }

  lemma FinalStopReportsNothing(pre: seq<Message>)
    ensures ReportedDirs(pre + [Stopped]) == ReportedDirs(pre)
  {
    FilterMapAppend(pre, [Stopped], ReportedDir);
    FilterMapSingleton(Stopped, ReportedDir);
  }

  /**
   Whatever the interleaving of `n` streams that each end in their single
   "stopped" message, the aggregator reads all of them and counts every
   directory they report.
   */
  lemma GatherInterleaved(merged: seq<Message>, outs: seq<seq<Message>>)
    requires |outs| >= 1
    requires Interleaving(merged, outs)
    requires forall w :: 0 <= w < |outs| ==> StopCount(outs[w]) == 1
    requires forall w :: 0 <= w < |outs| ==> outs[w] != [] && outs[w][|outs[w]| - 1] == Stopped
    ensures Gather(merged, |outs|) == Tally(ReportedDirs(Flatten(outs)))
  {
    var pre := LastStopArrives(merged, outs);
    GatherEndsWithLastStop(pre, |outs|);
    FinalStopReportsNothing(pre);
    InterleavingMultiset(merged, outs);
    FilterMapPermutation(merged, Flatten(outs), ReportedDir);
    TallyPermutation(ReportedDirs(pre), ReportedDirs(Flatten(outs)));
  }

  /** The last message to arrive is a "stopped", and the `|outs| - 1` others came before it. */
  lemma LastStopArrives(merged: seq<Message>, outs: seq<seq<Message>>) returns (pre: seq<Message>)
    requires |outs| >= 1
    requires Interleaving(merged, outs)
    requires forall w :: 0 <= w < |outs| ==> StopCount(outs[w]) == 1
    requires forall w :: 0 <= w < |outs| ==> outs[w] != [] && outs[w][|outs[w]| - 1] == Stopped
    ensures merged == pre + [Stopped]
    ensures StopCount(pre) == |outs| - 1
  {
    InterleavingMultiset(merged, outs);
    FlattenStopCount(outs);
    assert merged != [] by {
      assert |merged| == |multiset(merged)| == |multiset(Flatten(outs))| == |Flatten(outs)|;
      assert Flatten(outs) == outs[0] + Flatten(outs[1..]);
    }
    InterleavingLast(merged, outs);
    var last :| 0 <= last < |outs| && outs[last] != [] && outs[last][|outs[last]| - 1] == merged[|merged| - 1];
    pre := merged[..|merged| - 1];
    assert merged == pre + [Stopped];
    assert multiset(merged) == multiset(pre) + multiset{Stopped};
  }

  /**
   With `n` workers, under any legal schedule of the task queue and any
   arrival order at the aggregator, the aggregator reads every result and
   counts the directories of exactly the matching files.
   */
  lemma PoolCountsEveryMatch(pattern: string -> bool, fs: string -> FileContent, paths: seq<string>,
                             n: nat, takers: seq<nat>, merged: seq<Message>)
    requires n >= 1
    requires STOP_TASK !in paths
    requires LegalSchedule(TerminatePool(paths, n), takers, n)
    requires Interleaving(merged, WorkerOutputs(pattern, fs, Shares(TerminatePool(paths, n), takers, n)))
    ensures Gather(merged, n) == Tally(MatchingFileDirs(pattern, fs, paths))
  {
    var outs := WorkerOutputs(pattern, fs, Shares(TerminatePool(paths, n), takers, n));
    var ta := takers[..|paths|];
    assert ValidTakers(ta, n);
    var mine := Shares(paths, ta, n);
    PoolOutputs(pattern, fs, paths, n, takers, outs, mine);
    GatherInterleaved(merged, outs);
    FlattenReportedDirs(pattern, fs, outs, mine);
    SharesPartition(paths, ta, n);
    FilterMapPermutation(Flatten(mine), paths, p => MatchingFileDir(pattern, fs, p));
    TallyPermutation(MatchingFileDirs(pattern, fs, Flatten(mine)), MatchingFileDirs(pattern, fs, paths));
  }

  /** The counts do not depend on the size of the pool. */
  lemma PoolSizeIrrelevant(pattern: string -> bool, fs: string -> FileContent, paths: seq<string>,
                           n: nat, takers: seq<nat>, merged: seq<Message>)
    requires n >= 1
    requires STOP_TASK !in paths
    requires LegalSchedule(TerminatePool(paths, n), takers, n)
    requires Interleaving(merged, WorkerOutputs(pattern, fs, Shares(TerminatePool(paths, n), takers, n)))
    ensures Gather(merged, n) == Gather(Worker(pattern, fs, TerminatePool(paths, 1)), 1)
  {
    PoolCountsEveryMatch(pattern, fs, paths, n, takers, merged);
    SingleWorkerCounts(pattern, fs, paths);
  }

  /**
   Under any legal schedule and any arrival order, the directories the
   aggregator receives are those of the matching tasks, as a multiset.
   */
  lemma PoolReportsMatchingFileDirs(pattern: string -> bool, fs: string -> FileContent, paths: seq<string>,
                               n: nat, takers: seq<nat>, merged: seq<Message>)
    requires STOP_TASK !in paths
    requires LegalSchedule(TerminatePool(paths, n), takers, n)
    requires Interleaving(merged, WorkerOutputs(pattern, fs, Shares(TerminatePool(paths, n), takers, n)))
    ensures multiset(ReportedDirs(merged)) == multiset(MatchingFileDirs(pattern, fs, paths))
  {
    var outs := WorkerOutputs(pattern, fs, Shares(TerminatePool(paths, n), takers, n));
    var ta := takers[..|paths|];
    assert ValidTakers(ta, n);
    var mine := Shares(paths, ta, n);
    PoolOutputs(pattern, fs, paths, n, takers, outs, mine);
    InterleavingMultiset(merged, outs);
    FilterMapPermutation(merged, Flatten(outs), ReportedDir);
    FlattenReportedDirs(pattern, fs, outs, mine);
    SharesPartition(paths, ta, n);
    FilterMapPermutation(Flatten(mine), paths, p => MatchingFileDir(pattern, fs, p));
  }
}

=== FILE: seqs.dfy ===
/**
 Generic helpers over sequences, shared by the modules of the model:
 an Option type, repetition, flattening and a filter-and-map, with the
 facts about them (append and permutation behaviour) that the rest of the
 model relies on.
 */
module Seqs {

  datatype Option<T> = None | Some(value: T)

  /** `n` copies of `x`. */
  function Repeat<T>(x: T, n: nat): (r: seq<T>)
    ensures |r| == n
    ensures forall i :: 0 <= i < n ==> r[i] == x
  {
    if n == 0 then [] else [x] + Repeat(x, n - 1)
  }

  /** The elements of every sequence of `ss`, in order. */
  function Flatten<T>(ss: seq<seq<T>>): seq<T>
  {
    if ss == [] then [] else ss[0] + Flatten(ss[1..])
  }

  /** Applies `f` to every element and keeps the `Some` payloads, in order. */
  function FilterMap<T, U>(s: seq<T>, f: T -> Option<U>): seq<U>
  {
    if s == [] then []
    else (match f(s[0]) case Some(u) => [u] case None => []) + FilterMap(s[1..], f)
  }

  lemma FilterMapSingleton<T, U>(x: T, f: T -> Option<U>)
    ensures FilterMap([x], f) == if f(x).Some? then [f(x).value] else []
  {
    assert [x][1..] == [];
  }

  lemma {:induction false} FilterMapAppend<T, U>(a: seq<T>, b: seq<T>, f: T -> Option<U>)
    ensures FilterMap(a + b, f) == FilterMap(a, f) + FilterMap(b, f)
  {
    if a == [] {
      assert a + b == b;
    } else {
      assert (a + b)[1..] == a[1..] + b;
      FilterMapAppend(a[1..], b, f);
    }
  }

  /** FilterMap commutes with reordering: permuted inputs give permuted outputs. */
  lemma {:induction false} FilterMapPermutation<T, U>(a: seq<T>, b: seq<T>, f: T -> Option<U>)
    requires multiset(a) == multiset(b)
    ensures multiset(FilterMap(a, f)) == multiset(FilterMap(b, f))
    decreases |a|
  {
    if a == [] {
      assert |multiset(b)| == 0;
    } else {
      var x := a[0];
      assert x in multiset(b);
      var k :| 0 <= k < |b| && b[k] == x;
      var rest := b[..k] + b[k + 1..];
      RemoveMatching(a, b, k);
      assert b == b[..k] + [x] + b[k + 1..];
      FilterMapRemove(b[..k], x, b[k + 1..], f);
      FilterMapPermutation(a[1..], rest, f);
      FilterMapAppend([x], a[1..], f);
    }
  }

  /** Taking the first element off `a` and a copy of it off a permutation `b` leaves permutations. */
  lemma RemoveMatching<T>(a: seq<T>, b: seq<T>, k: nat)
    requires multiset(a) == multiset(b)
    requires a != [] && k < |b| && b[k] == a[0]
    ensures multiset(a[1..]) == multiset(b[..k] + b[k + 1..])
  {
    var x := a[0];
    var left, right := b[..k], b[k + 1..];
    assert b == left + [x] + right;
    assert a == [x] + a[1..];
    calc {
      multiset(left + right) + multiset{x};
      multiset(left) + multiset(right) + multiset{x};
      multiset(left) + multiset{x} + multiset(right);
      multiset(left + [x] + right);
      multiset(a);
      multiset([x] + a[1..]);
      multiset(a[1..]) + multiset{x};
    }
    MultisetCancel(multiset(left + right), multiset(a[1..]), multiset{x});
  }

  /** Taking out element `x` takes its image out of the mapped sequence. */
  lemma FilterMapRemove<T, U>(left: seq<T>, x: T, right: seq<T>, f: T -> Option<U>)
    ensures multiset(FilterMap(left + [x] + right, f)) == multiset(FilterMap([x], f)) + multiset(FilterMap(left + right, f))
  {
    FilterMapSplit(left, x, right, f);
    FilterMapAppend(left, right, f);
    MultisetMiddle(FilterMap(left, f), FilterMap([x], f), FilterMap(right, f));
  }

  lemma FilterMapSplit<T, U>(left: seq<T>, x: T, right: seq<T>, f: T -> Option<U>)
    ensures FilterMap(left + [x] + right, f) == FilterMap(left, f) + FilterMap([x], f) + FilterMap(right, f)
  {
    FilterMapAppend(left + [x], right, f);
    FilterMapAppend(left, [x], f);
  }

  lemma MultisetMiddle<T>(l: seq<T>, m: seq<T>, r: seq<T>)
    ensures multiset(l + m + r) == multiset(m) + multiset(l + r)
  {
  }

  /** Replacing one sequence of `ss` by `v` changes the flattened contents accordingly. */
  lemma {:induction false} FlattenUpdate<T>(ss: seq<seq<T>>, i: nat, v: seq<T>)
    requires i < |ss|
    ensures multiset(Flatten(ss[i := v])) + multiset(ss[i]) == multiset(Flatten(ss)) + multiset(v)
  {
    var updated := ss[i := v];
    if i == 0 {
      assert updated[1..] == ss[1..];
    } else {
      var tail := ss[1..][i - 1 := v];
      assert updated[1..] == tail;
      assert ss[1..][i - 1] == ss[i];
      FlattenUpdate(ss[1..], i - 1, v);
      var left := multiset(Flatten(tail));
      var right := multiset(Flatten(ss[1..]));
      assert left + multiset(ss[i]) == right + multiset(v);
      assert multiset(Flatten(updated)) == multiset(ss[0]) + left;
      assert multiset(Flatten(ss)) == multiset(ss[0]) + right;
      calc {
        multiset(Flatten(updated)) + multiset(ss[i]);
        multiset(ss[0]) + (left + multiset(ss[i]));
        multiset(ss[0]) + (right + multiset(v));
        multiset(Flatten(ss)) + multiset(v);
      }
    }
  }

  /** Adding the same elements to two multisets keeps them apart or equal. */
  lemma MultisetCancel<T>(a: multiset<T>, b: multiset<T>, c: multiset<T>)
    requires a + c == b + c
    ensures a == b
  {
    forall y
      ensures a[y] == b[y]
    {
      assert (a + c)[y] == a[y] + c[y];
      assert (b + c)[y] == b[y] + c[y];
    }
  }

  lemma {:induction false} FlattenEmpties<T>(ss: seq<seq<T>>)
    requires forall i :: 0 <= i < |ss| ==> ss[i] == []
    ensures Flatten(ss) == []
  {
    if ss != [] {
      FlattenEmpties(ss[1..]);
    }
  }

  /** No element occurs twice. */
  predicate Distinct<T(==)>(s: seq<T>)
  {
    forall i, j :: 0 <= i < j < |s| ==> s[i] != s[j]
  }

  lemma DistinctAppend<T>(a: seq<T>, b: seq<T>)
    requires Distinct(a) && Distinct(b)
    requires forall x :: x in a ==> x !in b
    ensures Distinct(a + b)
  {
    var ab := a + b;
    forall i, j | 0 <= i < j < |ab|
      ensures ab[i] != ab[j]
    {
      if j < |a| {
        assert ab[i] == a[i] && ab[j] == a[j];
      } else if i >= |a| {
        assert ab[i] == b[i - |a|] && ab[j] == b[j - |a|];
      } else {
        assert ab[i] in a && ab[j] in b;
      }
    }
  }
}

=== FILE: walker.dfy ===
/**
 The directory walk `find_files` of findfiles.py.

 The file system is a finite tree. A directory lists its entries in the
 order the listing returns them; an entry is a directory (which may refuse
 to be listed) or anything else, which the walk treats as a file. The walk
 lists a directory, joins every entry name onto the directory's path,
 descends into each subdirectory on the spot and enqueues every other
 entry as a task. A listing that fails is reported and skipped. The model
 returns the tasks in the order they are enqueued.
 */
module Walker {
  import opened Seqs
  import opened Paths
  import opened Messages

  datatype Tree =
    | File                      // any entry os.path.isdir rejects
    | Dir(entries: seq<Entry>)  // a directory that can be listed
    | UnlistableDir             // a directory whose listing raises OSError

  datatype Entry = Entry(name: string, node: Tree)

  /** The tasks enqueued by find_files(path) when `path` is the node `t`. */
  function FindFiles(path: string, t: Tree): seq<string>
    decreases t, 1
  {
    match t
    case Dir(es) => ListEntries(path, es)
    case File => []            // listing a non-directory raises OSError
    case UnlistableDir => []
  }

  /** The tasks enqueued for the entries `es` of the directory at `path`, in listing order. */
  function ListEntries(path: string, es: seq<Entry>): seq<string>
    decreases es, 0
  {
    if es == [] then []
    else EntryPaths(path, es[0]) + ListEntries(path, es[1..])
  }

  /** The tasks enqueued for one entry: itself when it is not a directory, else its whole subtree. */
  function EntryPaths(path: string, e: Entry): seq<string>
    decreases e, 2
  {
    var p := Join(path, e.name);
    if e.node.File? then [p] else FindFiles(p, e.node)
  }

  /** A file system as it can be listed: entry names are valid and distinct within each directory. */
  predicate WellFormed(t: Tree)
    decreases t
  {
    t.Dir? ==>
      && (forall i :: 0 <= i < |t.entries| ==> ValidName(t.entries[i].name) && WellFormed(t.entries[i].node))
      && (forall i, j :: 0 <= i < j < |t.entries| ==> t.entries[i].name != t.entries[j].name)
  }

  /** `route` is a chain of entry names, through directories that can be listed, ending at a file. */
  ghost predicate FileAt(t: Tree, route: seq<string>)
    decreases t
  {
    && t.Dir?
    && route != []
    && exists i :: 0 <= i < |t.entries| && t.entries[i].name == route[0] &&
         if |route| == 1 then t.entries[i].node.File? else FileAt(t.entries[i].node, route[1..])
  }

  /** The path obtained by joining the names of `route` onto `root` one after another. */
  function PathOf(root: string, route: seq<string>): string
    decreases route
  {
    if route == [] then root else PathOf(Join(root, route[0]), route[1..])
  }

  lemma {:induction false} ListEntriesMember(path: string, es: seq<Entry>, p: string)
    ensures p in ListEntries(path, es) <==> exists i :: 0 <= i < |es| && p in EntryPaths(path, es[i])
  {
    if es != [] {
      ListEntriesMember(path, es[1..], p);
      if p in ListEntries(path, es[1..]) {
        var i :| 0 <= i < |es[1..]| && p in EntryPaths(path, es[1..][i]);
        assert es[1..][i] == es[i + 1];
      }
      if exists i :: 0 <= i < |es| && p in EntryPaths(path, es[i]) {
        var i :| 0 <= i < |es| && p in EntryPaths(path, es[i]);
        if i > 0 {
          assert es[1..][i - 1] == es[i];
        }
      }
    }
  }

  /** Listing order is kept: the tasks of a concatenation of entries are the concatenated tasks. */
  lemma {:induction false} ListEntriesAppend(path: string, a: seq<Entry>, b: seq<Entry>)
    ensures ListEntries(path, a + b) == ListEntries(path, a) + ListEntries(path, b)
  {
    if a == [] {
      assert a + b == b;
    } else {
      assert (a + b)[1..] == a[1..] + b;
      ListEntriesAppend(path, a[1..], b);
    }
  }

  /**
   Depth first, in listing order: the tasks of a directory are those of the
   entries before entry `i`, then entry `i` itself when it is not a directory
   (as its joined path) or its entire subtree when it is, then those of the
   entries after it.
   */
  lemma DepthFirstOrder(path: string, es: seq<Entry>, i: nat)
    requires i < |es|
    ensures FindFiles(path, Dir(es)) ==
              FindFiles(path, Dir(es[..i]))
              + (if es[i].node.File? then [Join(path, es[i].name)] else FindFiles(Join(path, es[i].name), es[i].node))
              + FindFiles(path, Dir(es[i + 1..]))
  {
    assert es == es[..i] + ([es[i]] + es[i + 1..]);
    ListEntriesAppend(path, es[..i], [es[i]] + es[i + 1..]);
    ListEntriesAppend(path, [es[i]], es[i + 1..]);
  }

  /** A directory that cannot be listed contributes nothing, and the walk carries on past it. */
  lemma UnlistableSkipped(path: string, es: seq<Entry>, i: nat)
    requires i < |es| && es[i].node == UnlistableDir
    ensures FindFiles(path, Dir(es)) == FindFiles(path, Dir(es[..i] + es[i + 1..]))
  {
    DepthFirstOrder(path, es, i);
    ListEntriesAppend(path, es[..i], es[i + 1..]);
  }

  lemma {:induction false} FindFilesSound(path: string, t: Tree, p: string)
    requires p in FindFiles(path, t)
    ensures exists route :: FileAt(t, route) && PathOf(path, route) == p
    decreases t
  {
    var es := t.entries;
    ListEntriesMember(path, es, p);
    var i :| 0 <= i < |es| && p in EntryPaths(path, es[i]);
    var e := es[i];
    var q := Join(path, e.name);
    if e.node.File? {
      var route := [e.name];
      assert FileAt(t, route);
      assert PathOf(path, route) == PathOf(q, []) == p;
    } else {
      FindFilesSound(q, e.node, p);
      var sub :| FileAt(e.node, sub) && PathOf(q, sub) == p;
      var route := [e.name] + sub;
      assert route[1..] == sub;
      assert FileAt(t, route);
      assert PathOf(path, route) == p;
    }
  }

  lemma {:induction false} FindFilesComplete(path: string, t: Tree, route: seq<string>)
    requires FileAt(t, route)
    ensures PathOf(path, route) in FindFiles(path, t)
    decreases t
  {
    var es := t.entries;
    var i :| 0 <= i < |es| && es[i].name == route[0] &&
               if |route| == 1 then es[i].node.File? else FileAt(es[i].node, route[1..]);
    var q := Join(path, route[0]);
    if |route| == 1 {
      assert PathOf(path, route) == PathOf(q, route[1..]) == q;
    } else {
      FindFilesComplete(q, es[i].node, route[1..]);
    }
    assert PathOf(path, route) in EntryPaths(path, es[i]);
    ListEntriesMember(path, es, PathOf(path, route));
  }

  /** The walk enqueues exactly the files reachable through listable directories, each under its joined path. */
  lemma WalkEnqueuesReachableFiles(path: string, t: Tree)
    ensures forall p :: p in FindFiles(path, t) ==> exists route :: FileAt(t, route) && PathOf(path, route) == p
    ensures forall route :: FileAt(t, route) ==> PathOf(path, route) in FindFiles(path, t)
  {
    forall p | p in FindFiles(path, t)
      ensures exists route :: FileAt(t, route) && PathOf(path, route) == p
    {
      FindFilesSound(path, t, p);
    }
    assert forall p :: p in FindFiles(path, t) ==> exists route :: FileAt(t, route) && PathOf(path, route) == p;
    forall route | FileAt(t, route)
      ensures PathOf(path, route) in FindFiles(path, t)
    {
      FindFilesComplete(path, t, route);
    }
  }

  /** Every task found below `path` extends the prefix a join onto `path` adds. */
  lemma {:induction false} UnderPrefix(path: string, t: Tree, q: string)
    requires WellFormed(t) && q in FindFiles(path, t)
    ensures |JoinPrefix(path)| < |q| && q[..|JoinPrefix(path)|] == JoinPrefix(path)
    decreases t
  {
    var i := PickEntry(path, t.entries, q);
    var e := t.entries[i];
    assert ValidName(e.name) && WellFormed(e.node);
    EntryShape(path, e, q);
    var pre := JoinPrefix(path);
    var s := pre + e.name;
    assert s[..|pre|] == pre;
    PrefixOfPrefix(q, s, pre);
  }

  /** The entry whose tasks include `q`. */
  lemma PickEntry(path: string, es: seq<Entry>, q: string) returns (i: nat)
    requires q in ListEntries(path, es)
    ensures i < |es| && q in EntryPaths(path, es[i])
  {
    ListEntriesMember(path, es, q);
    i :| 0 <= i < |es| && q in EntryPaths(path, es[i]);
  }

  lemma PrefixOfPrefix(q: string, b: string, a: string)
    requires |b| <= |q| && q[..|b|] == b
    requires |a| <= |b| && b[..|a|] == a
    ensures q[..|a|] == a
  {
    assert q[..|a|] == q[..|b|][..|a|];
  }

  /** `q` is `s`, or `s` followed by a separator and more. */
  predicate Extends(q: string, s: string)
  {
    |s| <= |q| && q[..|s|] == s && (|q| == |s| || q[|s|] == '/')
  }

  /** Every task of an entry is its joined path, or lies below it. */
  lemma {:induction false} EntryShape(path: string, e: Entry, q: string)
    requires ValidName(e.name) && WellFormed(e.node) && q in EntryPaths(path, e)
    ensures Extends(q, JoinPrefix(path) + e.name)
    decreases e
  {
    JoinValidName(path, e.name);
    var s := JoinPrefix(path) + e.name;
    if e.node.File? {
      assert q == s;
    } else {
      assert q in FindFiles(s, e.node);
      UnderPrefix(s, e.node, q);
      assert JoinPrefix(s) == s + "/";
      PrefixOfPrefix(q, s + "/", s);
    }
  }

  /** A task of one entry is never a task of a differently named sibling. */
  lemma NamesSeparate(prefix: string, n1: string, n2: string, q: string)
    requires ValidName(n1) && ValidName(n2) && n1 != n2
    requires Extends(q, prefix + n1)
    ensures !Extends(q, prefix + n2)
  {
    var s1 := prefix + n1;
    var s2 := prefix + n2;
    assert s1[|prefix|..] == n1 && s2[|prefix|..] == n2;
    if |n1| < |n2| {
      assert s2[|s1|] == n2[|n1|];
      assert n2[|n1|] in n2;
    } else if |n2| < |n1| {
      assert s1[|s2|] == n1[|n2|];
      assert n1[|n2|] in n1;
    }
  }

  lemma {:induction false} FindFilesDistinct(path: string, t: Tree)
    requires WellFormed(t)
    ensures Distinct(FindFiles(path, t))
    decreases t, 1
  {
    if t.Dir? {
      ListEntriesDistinct(path, t.entries);
    }
  }

  lemma {:induction false} ListEntriesDistinct(path: string, es: seq<Entry>)
    requires forall i :: 0 <= i < |es| ==> ValidName(es[i].name) && WellFormed(es[i].node)
    requires forall i, j :: 0 <= i < j < |es| ==> es[i].name != es[j].name
    ensures Distinct(ListEntries(path, es))
    decreases es, 0
  {
    if es != [] {
      var e := es[0];
      var first := EntryPaths(path, e);
      var rest := ListEntries(path, es[1..]);
      if !e.node.File? {
        FindFilesDistinct(Join(path, e.name), e.node);
      }
      ListEntriesDistinct(path, es[1..]);
      forall q | q in first
        ensures q !in rest
      {
        if q in rest {
          ListEntriesMember(path, es[1..], q);
          var j :| 0 <= j < |es[1..]| && q in EntryPaths(path, es[1..][j]);
          var other := es[1..][j];
          assert other == es[j + 1];
          EntryShape(path, e, q);
          EntryShape(path, other, q);
          NamesSeparate(JoinPrefix(path), e.name, other.name, q);
          assert false;
        }
      }
      DistinctAppend(first, rest);
    }
  }

  /** In a well-formed tree no file is enqueued twice. */
  lemma WalkEnqueuesEachFileOnce(path: string, t: Tree)
    requires WellFormed(t)
    ensures Distinct(FindFiles(path, t))
  {
    FindFilesDistinct(path, t);
  }

  /** Below a non-empty root every task holds a separator, so none is the stop sentinel. */
  lemma NoTaskIsSentinel(root: string, t: Tree)
    requires root != [] && WellFormed(t)
    ensures forall q :: q in FindFiles(root, t) ==> '/' in q
    ensures STOP_TASK !in FindFiles(root, t)
  {
    var prefix := JoinPrefix(root);
    forall q | q in FindFiles(root, t)
      ensures '/' in q
    {
      UnderPrefix(root, t, q);
      assert q[|prefix| - 1] == prefix[|prefix| - 1] == '/';
    }
    assert '/' !in STOP_TASK;
  }

  lemma {:induction false} PathOfAppend(root: string, route: seq<string>, name: string)
    ensures PathOf(root, route + [name]) == Join(PathOf(root, route), name)
    decreases route
  {
    if route == [] {
      assert route + [name] == [name];
    } else {
      assert (route + [name])[1..] == route[1..] + [name];
      PathOfAppend(Join(root, route[0]), route[1..], name);
    }
  }

  /** A joined valid name is never empty and never ends in a separator. */
  lemma JoinedShape(parent: string, name: string)
    requires ValidName(name)
    ensures Join(parent, name) != [] && !EndsWithSlash(Join(parent, name))
  {
    var p := Join(parent, name);
    JoinValidName(parent, name);
    assert p[|p| - 1] == name[|name| - 1];
    assert name[|name| - 1] in name;
  }

  /**
   Joining at least one valid name, or joining onto a non-empty root that
   does not end in a separator, gives a non-empty path without a trailing
   separator.
   */
  lemma {:induction false} PathOfShape(root: string, route: seq<string>)
    requires route != [] || (root != [] && !EndsWithSlash(root))
    requires forall k :: 0 <= k < |route| ==> ValidName(route[k])
    ensures PathOf(root, route) != [] && !EndsWithSlash(PathOf(root, route))
    decreases route
  {
    if route != [] {
      var name := route[0];
      JoinedShape(root, name);
      forall k | 0 <= k < |route[1..]|
        ensures ValidName(route[1..][k])
      {
        assert route[1..][k] == route[k + 1];
      }
      PathOfShape(Join(root, name), route[1..]);
    }
  }

  /** Every name on the route to a file is a name a listing returns. */
  lemma {:induction false} RouteNamesValid(t: Tree, route: seq<string>)
    requires WellFormed(t) && FileAt(t, route)
    ensures forall k :: 0 <= k < |route| ==> ValidName(route[k])
    decreases t
  {
    var i :| 0 <= i < |t.entries| && t.entries[i].name == route[0] &&
              if |route| == 1 then t.entries[i].node.File? else FileAt(t.entries[i].node, route[1..]);
    if |route| > 1 {
      RouteNamesValid(t.entries[i].node, route[1..]);
      forall k | 1 <= k < |route|
        ensures ValidName(route[k])
      {
        assert route[k] == route[1..][k - 1];
      }
    }
  }

  /**
   A root that `dirname` gives back as written for the entries joined onto
   it: non-empty, and either without a trailing separator or made only of
   separators (such as "/").
   */
  predicate DirnameKeepsRoot(root: string)
  {
    root != [] && (!EndsWithSlash(root) || AllSlashes(root))
  }

  /** Below such a root, the directory of a joined path is the path joined so far. */
  lemma DirnameOfPathOf(root: string, route: seq<string>)
    requires DirnameKeepsRoot(root)
    requires route != [] && forall k :: 0 <= k < |route| ==> ValidName(route[k])
    ensures Dirname(PathOf(root, route)) == PathOf(root, route[..|route| - 1])
  {
    var dirs := route[..|route| - 1];
    var name := route[|route| - 1];
    assert route == dirs + [name];
    PathOfAppend(root, dirs, name);
    if dirs == [] {
      DirnameOfJoin(root, name);
    } else {
      assert forall k :: 0 <= k < |dirs| ==> dirs[k] == route[k];
      PathOfShape(root, dirs);
      DirnameOfJoin(PathOf(root, dirs), name);
    }
  }

  /**
   The directory a worker reports for a walked file is the path the walk
   gave the file's directory, whenever `dirname` keeps the root as written.
   */
  lemma ReportedDirectoryIsParent(root: string, t: Tree, route: seq<string>)
    requires DirnameKeepsRoot(root)
    requires WellFormed(t) && FileAt(t, route)
    ensures Dirname(PathOf(root, route)) == PathOf(root, route[..|route| - 1])
  {
    RouteNamesValid(t, route);
    DirnameOfPathOf(root, route);
  }

  /** Below a non-empty root, every path joined from at least one name holds a separator. */
  lemma WalkedDirectoryHasSlash(root: string, route: seq<string>)
    requires root != [] && route != []
    requires forall k :: 0 <= k < |route| ==> ValidName(route[k])
    ensures '/' in PathOf(root, route)
  {
    var dirs := route[..|route| - 1];
    var name := route[|route| - 1];
    assert route == dirs + [name];
    PathOfAppend(root, dirs, name);
    if dirs != [] {
      assert forall k :: 0 <= k < |dirs| ==> dirs[k] == route[k];
      PathOfShape(root, dirs);
    }
    JoinHasSlash(PathOf(root, dirs), name);
  }

  /** Below a root that is not a control string, no walked directory path is one. */
  lemma WalkedDirectoryNotControl(root: string, route: seq<string>)
    requires root != [] && !IsControl(root)
    requires forall k :: 0 <= k < |route| ==> ValidName(route[k])
    ensures !IsControl(PathOf(root, route))
  {
    if route != [] {
      WalkedDirectoryHasSlash(root, route);
      SlashedNotControl(PathOf(root, route));
    }
  }

  /** Control strings hold no separator. */
  lemma SlashedNotControl(s: string)
    requires '/' in s
    ensures !IsControl(s)
  {
    assert '/' !in NO_MATCH && '/' !in STOPPED;
  }

  /**
   The directory of a path joined from at least one name is a control
   string only when it is the root, less its trailing separators, and that is one.
   */
  lemma JoinedParentNotControl(root: string, route: seq<string>)
    requires root != [] && !IsControl(StripTrailingSlashes(root))
    requires route != [] && forall k :: 0 <= k < |route| ==> ValidName(route[k])
    ensures !IsControl(Dirname(PathOf(root, route)))
  {
    var dirs := route[..|route| - 1];
    var name := route[|route| - 1];
    assert route == dirs + [name];
    PathOfAppend(root, dirs, name);
    var parent := PathOf(root, dirs);
    DirnameOfJoin(parent, name);
    if dirs == [] {
      if AllSlashes(root) {
        assert root[0] in root;
        SlashedNotControl(root);
      }
    } else {
      assert forall k :: 0 <= k < |dirs| ==> dirs[k] == route[k];
      PathOfShape(root, dirs);
      WalkedDirectoryHasSlash(root, dirs);
      SlashedNotControl(parent);
    }
  }

  /**
   The directory `dirname` reports for a walked file is never a control
   string, unless the root itself, less its trailing separators, is one.
   */
  lemma TaskParentNotControl(root: string, t: Tree, p: string)
    requires root != [] && !IsControl(StripTrailingSlashes(root)) && WellFormed(t)
    requires p in FindFiles(root, t)
    ensures !IsControl(Dirname(p))
  {
    FindFilesSound(root, t, p);
    var route :| FileAt(t, route) && PathOf(root, route) == p;
    RouteNamesValid(t, route);
    JoinedParentNotControl(root, route);
  }
}

=== FILE: worker.dfy ===
/**
 The worker process loop `worker` of findfiles.py.

 A worker takes tasks off the task queue until it takes the sentinel
 "---STOP---". For each task it runs the matcher on the file (whose content
 is `fs(path)`), which may send keep-alives while it scans, and then puts
 exactly one result: the file's directory on a match, otherwise a
 no-match signal. After the sentinel it puts "---stopped---" and exits.
 A worker whose queue runs dry before a sentinel is blocked in `get`; the
 model returns what it has put so far.
 */
module WorkerLoop {
  import opened Seqs
  import opened Paths
  import opened Messages
  import opened Matcher

  /** The directory reported for task `p`, when its file matches. */
  function MatchingFileDir(pattern: string -> bool, fs: string -> FileContent, p: string): Option<string>
  {
    if IsFileMatch(pattern, fs(p)).found then Some(Dirname(p)) else None
  }

  /** The directories of the matching files among `ps`, in task order. */
  function MatchingFileDirs(pattern: string -> bool, fs: string -> FileContent, ps: seq<string>): seq<string>
  {
    FilterMap(ps, p => MatchingFileDir(pattern, fs, p))
  }

  /** Reference count: how many files among `ps` match and lie in directory `d`. */
  function CountMatchingIn(pattern: string -> bool, fs: string -> FileContent, ps: seq<string>, d: string): nat
  {
    if ps == [] then 0
    else (if IsFileMatch(pattern, fs(ps[0])).found && Dirname(ps[0]) == d then 1 else 0)
         + CountMatchingIn(pattern, fs, ps[1..], d)
  }

  /** A directory occurs among the reported directories once per matching file in it. */
  lemma {:induction false} MatchingFileDirsCount(pattern: string -> bool, fs: string -> FileContent, ps: seq<string>, d: string)
    ensures multiset(MatchingFileDirs(pattern, fs, ps))[d] == CountMatchingIn(pattern, fs, ps, d)
  {
    if ps != [] {
      var f := (q: string) => MatchingFileDir(pattern, fs, q);
      MatchingFileDirsCount(pattern, fs, ps[1..], d);
      assert ps == [ps[0]] + ps[1..];
      FilterMapAppend([ps[0]], ps[1..], f);
      FilterMapSingleton(ps[0], f);
    }
  }

  /** Keep-alives sent while scanning the files of `ps`, in total. */
  function TotalKeepAlives(pattern: string -> bool, fs: string -> FileContent, ps: seq<string>): nat
  {
    if ps == [] then 0
    else IsFileMatch(pattern, fs(ps[0])).keepAlives + TotalKeepAlives(pattern, fs, ps[1..])
  }

  /** What one task puts on the result queue: the scan's keep-alives, then its result. */
  function TaskMessages(pattern: string -> bool, fs: string -> FileContent, p: string): seq<Message>
  {
    var outcome := IsFileMatch(pattern, fs(p));
    Repeat(Alive, outcome.keepAlives) + [if outcome.found then Match(Dirname(p)) else Alive]
  }

  /** Everything a worker puts on the result queue when `tasks` is what it takes off the task queue. */
  function Worker(pattern: string -> bool, fs: string -> FileContent, tasks: seq<string>): seq<Message>
  {
    if tasks == [] then []
    else if tasks[0] == STOP_TASK then [Stopped]
    else TaskMessages(pattern, fs, tasks[0]) + Worker(pattern, fs, tasks[1..])
  }

  /** A matching file in `d` makes the count of `d` at least one. */
  lemma {:induction false} CountedFileCounts(pattern: string -> bool, fs: string -> FileContent, ps: seq<string>, k: nat, d: string)
    requires k < |ps| && IsFileMatch(pattern, fs(ps[k])).found && Dirname(ps[k]) == d
    ensures CountMatchingIn(pattern, fs, ps, d) >= 1
  {
    CountMatchingStep(pattern, fs, ps, d);
    if k > 0 {
      assert ps[1..][k - 1] == ps[k];
      CountedFileCounts(pattern, fs, ps[1..], k - 1, d);
    }
  }

  lemma CountMatchingStep(pattern: string -> bool, fs: string -> FileContent, ps: seq<string>, d: string)
    requires ps != []
    ensures CountMatchingIn(pattern, fs, ps, d) >= CountMatchingIn(pattern, fs, ps[1..], d)
    ensures IsFileMatch(pattern, fs(ps[0])).found && Dirname(ps[0]) == d ==> CountMatchingIn(pattern, fs, ps, d) >= 1
  {
  }

  lemma {:induction false} KeepAlivesReportNothing(k: nat)
    ensures ReportedDirs(Repeat(Alive, k)) == []
    ensures StopCount(Repeat(Alive, k)) == 0
  {
    assert Stopped !in Repeat(Alive, k);
    if k > 0 {
      assert Repeat(Alive, k)[1..] == Repeat(Alive, k - 1);
      KeepAlivesReportNothing(k - 1);
    }
  }

  /** One task yields its keep-alives plus exactly one result, reporting its directory only on a match. */
  lemma TaskResult(pattern: string -> bool, fs: string -> FileContent, p: string)
    ensures |TaskMessages(pattern, fs, p)| == IsFileMatch(pattern, fs(p)).keepAlives + 1
    ensures ReportedDirs(TaskMessages(pattern, fs, p)) == MatchingFileDirs(pattern, fs, [p])
    ensures StopCount(TaskMessages(pattern, fs, p)) == 0
  {
    var outcome := IsFileMatch(pattern, fs(p));
    var last: Message := if outcome.found then Match(Dirname(p)) else Alive;
    KeepAlivesReportNothing(outcome.keepAlives);
    FilterMapAppend(Repeat(Alive, outcome.keepAlives), [last], ReportedDir);
    FilterMapSingleton(last, ReportedDir);
    FilterMapSingleton(p, q => MatchingFileDir(pattern, fs, q));
  }

  lemma {:induction false} WorkerLength(pattern: string -> bool, fs: string -> FileContent, tasks: seq<string>)
    requires STOP_TASK !in tasks
    ensures |Worker(pattern, fs, tasks)| == |tasks| + TotalKeepAlives(pattern, fs, tasks)
  {
    if tasks != [] {
      WorkerLength(pattern, fs, tasks[1..]);
      TaskResult(pattern, fs, tasks[0]);
    }
  }

  lemma {:induction false} WorkerNeverStops(pattern: string -> bool, fs: string -> FileContent, tasks: seq<string>)
    requires STOP_TASK !in tasks
    ensures StopCount(Worker(pattern, fs, tasks)) == 0
  {
    if tasks != [] {
      var first := TaskMessages(pattern, fs, tasks[0]);
      var rest := Worker(pattern, fs, tasks[1..]);
      WorkerNeverStops(pattern, fs, tasks[1..]);
      TaskResult(pattern, fs, tasks[0]);
      assert multiset(first + rest) == multiset(first) + multiset(rest);
    }
  }

  lemma {:induction false} WorkerReports(pattern: string -> bool, fs: string -> FileContent, tasks: seq<string>)
    requires STOP_TASK !in tasks
    ensures ReportedDirs(Worker(pattern, fs, tasks)) == MatchingFileDirs(pattern, fs, tasks)
  {
    if tasks != [] {
      var p := tasks[0];
      var first := TaskMessages(pattern, fs, p);
      var rest := Worker(pattern, fs, tasks[1..]);
      assert Worker(pattern, fs, tasks) == first + rest;
      WorkerReports(pattern, fs, tasks[1..]);
      TaskResult(pattern, fs, p);
      FilterMapAppend(first, rest, ReportedDir);
      MatchingFileDirsCons(pattern, fs, tasks);
    }
  }

  lemma MatchingFileDirsCons(pattern: string -> bool, fs: string -> FileContent, ps: seq<string>)
    requires ps != []
    ensures MatchingFileDirs(pattern, fs, ps) == MatchingFileDirs(pattern, fs, [ps[0]]) + MatchingFileDirs(pattern, fs, ps[1..])
  {
    assert ps == [ps[0]] + ps[1..];
    FilterMapAppend([ps[0]], ps[1..], q => MatchingFileDir(pattern, fs, q));
  }

  /**
   Before its sentinel a worker puts, for the tasks in order, their
   keep-alives and one result each; the directories it reports are those
   of the matching files, in task order; and it never reports stopping.
   */
  lemma WorkerBeforeSentinel(pattern: string -> bool, fs: string -> FileContent, tasks: seq<string>)
    requires STOP_TASK !in tasks
    ensures |Worker(pattern, fs, tasks)| == |tasks| + TotalKeepAlives(pattern, fs, tasks)
    ensures ReportedDirs(Worker(pattern, fs, tasks)) == MatchingFileDirs(pattern, fs, tasks)
    ensures StopCount(Worker(pattern, fs, tasks)) == 0
  {
    WorkerLength(pattern, fs, tasks);
    WorkerReports(pattern, fs, tasks);
    WorkerNeverStops(pattern, fs, tasks);
  }

  /**
   The worker takes tasks up to the first sentinel and nothing after it: its
   output ends with a single "stopped" message, whatever follows the sentinel.
   */
  lemma {:induction false} WorkerStopsAtSentinel(pattern: string -> bool, fs: string -> FileContent, tasks: seq<string>, later: seq<string>)
    requires STOP_TASK !in tasks
    ensures Worker(pattern, fs, tasks + [STOP_TASK] + later) == Worker(pattern, fs, tasks) + [Stopped]
  {
    if tasks == [] {
      assert tasks + [STOP_TASK] + later == [STOP_TASK] + later;
    } else {
      assert (tasks + [STOP_TASK] + later)[1..] == tasks[1..] + [STOP_TASK] + later;
      WorkerStopsAtSentinel(pattern, fs, tasks[1..], later);
    }
  }

  /** A worker that takes a sentinel reports stopping exactly once, as its last message. */
  lemma WorkerStopsOnce(pattern: string -> bool, fs: string -> FileContent, tasks: seq<string>, later: seq<string>)
    requires STOP_TASK !in tasks
    ensures var out := Worker(pattern, fs, tasks + [STOP_TASK] + later);
            StopCount(out) == 1 && out[|out| - 1] == Stopped
  {
    WorkerStopsAtSentinel(pattern, fs, tasks, later);
    WorkerBeforeSentinel(pattern, fs, tasks);
    var before := Worker(pattern, fs, tasks);
    assert multiset(before + [Stopped]) == multiset(before) + multiset{Stopped};
  }

  /** A worker whose last task is its sentinel sends the results of the tasks before it, then "stopped", once. */
  lemma WorkerEndsAtSentinel(pattern: string -> bool, fs: string -> FileContent, tasks: seq<string>)
    requires STOP_TASK !in tasks
    ensures Worker(pattern, fs, tasks + [STOP_TASK]) == Worker(pattern, fs, tasks) + [Stopped]
    ensures StopCount(Worker(pattern, fs, tasks + [STOP_TASK])) == 1
  {
    assert tasks + [STOP_TASK] == tasks + [STOP_TASK] + [];
    WorkerStopsAtSentinel(pattern, fs, tasks, []);
    WorkerStopsOnce(pattern, fs, tasks, []);
  }

  /** A directory with a non-zero count has a matching file of `ps` directly in it. */
  lemma {:induction false} CountedFileWitness(pattern: string -> bool, fs: string -> FileContent, ps: seq<string>, d: string) returns (k: nat)
    requires CountMatchingIn(pattern, fs, ps, d) >= 1
    ensures k < |ps| && IsFileMatch(pattern, fs(ps[k])).found && Dirname(ps[k]) == d
    decreases |ps|
  {
    assert ps != [];
    if IsFileMatch(pattern, fs(ps[0])).found && Dirname(ps[0]) == d {
      k := 0;
    } else {
      var j := CountedFileWitness(pattern, fs, ps[1..], d);
      k := j + 1;
    }
  }
}
